=== FILE: README.md ===
# wistrans gateway core, modelled in Dafny

This project models the core of the wistrans backend. The backend is a Go HTTP gateway that sits in front of four
OpenAI-compatible chat providers: Qwen, DeepSeek, OpenAI and Kimi. It also keeps conversation transcripts in PostgreSQL.
The model covers the following parts:

- **Provider resolution** (`LlmClient`): how a free-text model specifier such as `gpt/gpt-4o`, `深度求索/x` or
  `kimi-latest` selects a provider and a model name, which credential and endpoint each provider uses, and the
  streaming request that is handed to the provider.
- **The streaming conversation turn** (`Handlers`). The handler validates the request in a fixed order, stores the user
  message, then opens the provider stream. It relays every chunk that has content as a server-sent `data` frame between
  a `start` and an `end` frame, adds a closing `stop` frame, stores the assistant's answer, and on the first turn
  dispatches the title task. Everything the handler observes is an input (`World`): database failures, the stream's
  chunks, clocks and the response id. Everything it does is an ordered list of `Effect`s plus the resulting `Store`.
- **The title task** (`Title`): the prompt, trimming, the 25-rune cap, and the conversation update.
- **The translation endpoint** (`Translate`): the prompt built from the segments and the `extra_args`, and the
  two-attempt reading of the model's JSON reply. JSON parsing is an abstract predicate.
- **The transcript store** (`SessionStore`): SQL statements become transitions of an abstract state. The message
  listing is a stable sort on creation time.
- **Message conversions** (`Session`), **default extraction fields** (`Fetch`), **web-search parameters and tolerant
  reply decoding** (`WebSearch`), and **the `sslmode` normalisation of the database URL** (`Db`).

Strings are sequences of runes. `Text` provides the few `strings` functions the code relies on: `Contains`, `Split`,
`TrimSpace`, `TrimPrefix`/`TrimSuffix`, and ASCII `ToLower`. Each comes with its characterising lemmas, for example
Split/Join inversion and the effect of trimming a string surrounded by spaces.

## Model

| member | source | states |
|---|---|---|
| Session.ToChatMessage | models/session.go:36-41 | the chat message has the stored message's role and content |
| Session.FromChatMessage | models/session.go:44-51 | the message belongs to the given conversation, has the chat message's role and content, is stamped with the supplied time, has id zero until stored, and converts back to the same chat message |
| Session.FromToChatMessage | models/session.go:36-51 | other direction of the round trip: an unstored message is rebuilt from its chat form and its conversation id and time |
| SessionStore.GetConversation | store/session_store.go:40-53 | fails exactly when no conversation has the id; otherwise returns the stored record |
| SessionStore.CreateConversation | store/session_store.go:21-27 | a duplicate id is refused; otherwise the record becomes retrievable, every other id reads as before, and messages are untouched |
| SessionStore.UpdateConversation | store/session_store.go:30-37 | only the title and update time of the conversation with the record's id change; id, user and creation time are kept; an unknown id changes nothing |
| SessionStore.CreateMessage | store/session_store.go:56-62 | appends exactly one message with the given conversation id, role, content and time under a fresh id; earlier messages and conversations are unchanged; the id invariant is kept |
| SessionStore.SortByTime | store/session_store.go:70 | the result is ordered by creation time and is a permutation of the input |
| SessionStore.InsertByTimeSorted | store/session_store.go:70 | inserting into a time-ordered list keeps it ordered |
| SessionStore.GetMessagesByConversationID | store/session_store.go:65-90 | the listing holds exactly the messages of the conversation (as a multiset), all with that id, in non-decreasing time |
| SessionStore.OfConversationMembers | store/session_store.go:65-71 | the listing holds every table message of the requested conversation exactly as often as the table does, and no other message |
| SessionStore.ToChatMessages | store/session_store.go:93-99 | same length; element i has the role and content of message i |
| SessionStore.ToChatMessagesAppend | store/session_store.go:93-99 | the conversion is order-preserving over concatenation |
| SessionStore.ListingIgnoresOtherConversations | store/session_store.go:56-90 | storing a message of another conversation leaves a listing unchanged |
| SessionStore.ListingIgnoresTitleUpdates | store/session_store.go:30-90 | retitling a conversation leaves every listing unchanged |
| SessionStore.ListingAppendsNewest | store/session_store.go:56-90 | a message no older than the conversation's others is listed last, behind the unchanged earlier listing (for a tie with the newest, by the model's tie order) |
| LlmClient.NewClient | llm/client.go:68-73 | construction fails exactly when no provider has a key |
| LlmClient.LookupAlias | llm/client.go:90-101 | a hint resolves exactly when it equals an alias, and then to that alias's provider |
| LlmClient.LookupAliasFirst | llm/client.go:90-99 | the first case of the switch whose alias equals the hint decides the provider |
| LlmClient.MatchProviderByModelRules | llm/client.go:111-136 | per provider, the exact token condition on the lower-cased name under which it is chosen, with qwen/通义 before deepseek before gpt before kimi, and Qwen as the fallback |
| LlmClient.ParseModel | llm/client.go:77-108 | empty gives Qwen's default model; a name without `/` keeps the name and infers the provider; `hint/name...` takes the second piece as the name and the provider from the alias table, else inferred from the name |
| LlmClient.ParseModelSecondSegment | llm/client.go:84-101 | for `hint/name/...` the name is exactly the second piece and later pieces are ignored |
| LlmClient.ParseModelHintCaseInsensitive | llm/client.go:89 | hints equal up to ASCII case resolve identically |
| LlmClient.ParseModelUnknownHint | llm/client.go:98-100 | an unrecognised hint never influences the provider |
| LlmClient.OpenAIHints | llm/client.go:95-96 | `openai`, `open ai` and `gpt` in any capitalisation select OpenAI |
| LlmClient.FirstTokenWins | llm/client.go:115-123 | a name containing both `deepseek` and `gpt` (and no Qwen token) goes to DeepSeek |
| LlmClient.EmptyNameAfterHint | llm/client.go:179-188 | `hint/` parses to an empty name, so streaming uses the provider's default model |
| LlmClient.GetClient | llm/client.go:139-176 | fails exactly when the provider's key is empty; otherwise binds that key, the provider's endpoint and its default model |
| LlmClient.StreamChat | llm/client.go:179-198 | a key failure is passed on unchanged; otherwise a streaming request for the given messages naming the given model, or the default when it is empty |
| Handlers.Relayed | api/handlers.go:251-254 | only chunks with non-empty first-choice content are relayed, never more than arrived |
| Handlers.RelayedEmpty | api/handlers.go:251-254 | nothing is relayed exactly when no chunk has content in its first choice |
| Handlers.RelayedAppend | api/handlers.go:244-284 | relaying is chunk by chunk: the relay of a concatenation concatenates the relays |
| Handlers.ConcatLength | api/handlers.go:251-254 | the accumulated text is empty exactly when nothing was relayed |
| Handlers.DataFrames | api/handlers.go:262-280 | one data frame per relayed delta, in order, with that delta |
| Handlers.RelayStep | api/handlers.go:244-284 | one more received chunk adds its data frame and its text exactly when it is relayable, and nothing otherwise |
| Handlers.RelayStream | api/handlers.go:244-284 | the receive loop sends the data frames of exactly the relayable chunks and accumulates exactly their text |
| Handlers.StreamedEffects | api/handlers.go:239-329 | after opening: start, data frames, stop and end frames in order; every data frame before the assistant write; no user write; the title task only on a first turn |
| Handlers.OpenedTurn | api/handlers.go:200-333 | after the user write the request is opened; if the client is already gone nothing else happens, otherwise the frame sequence is as above and the assistant message is stored unless its write fails |
| Handlers.OpenAndRelay | api/handlers.go:216-329 | a missing key or a failed open is a 500 that leaves only the user message; otherwise the opened turn, with the full chat in the request and the parsed model name or, when it is empty, the provider's default, and no frame, assistant write or title task when the client is gone |
| Handlers.AdmittedTurn | api/handlers.go:184-214 | a failed history read or user write is a 500 with no effect and an unchanged store; otherwise the user message is written first |
| Handlers.ChatFor | api/handlers.go:196-205 | the chat sent is the stored history of the conversation, converted in listing order, followed by the user's input as a user message |
| Handlers.StreamConversation | api/handlers.go:154-214 | empty id then empty input are 400, an unknown conversation is 404, a failed history read or user write is 500, all without effects; otherwise the user message is the first effect |
| Handlers.StreamConversationOpenFails | api/handlers.go:200-224 | when the stream does not open, exactly one new message (the user's) is stored and nothing else happens |
| Handlers.StreamConversationStreams | api/handlers.go:216-308 | an opened turn whose client is still connected sends start, one data frame per relayable chunk, stop and end; the request goes to the parsed provider, names the parsed model (the provider's default when it is empty) and carries the history followed by the input |
| Handlers.StreamConversationClientGone | api/handlers.go:216-237 | when the client is gone before the streaming step, the stream is opened but nothing is sent, only the user message is stored and no title task is dispatched |
| Handlers.StreamConversationPersists | api/handlers.go:200-320 | for a relayed stream, earlier messages and conversations are untouched; the user message of the conversation, with the input and its time, is stored next, then the assistant message with exactly the relayed text and its time; a failed assistant write stores only the user message |
| Handlers.StreamConversationTitle | api/handlers.go:322-326 | the title task is dispatched exactly on an opened turn, with the client still connected, of a conversation with no stored messages, carrying the input and the relayed text |
| Title.ByteLenAtLeastRunes | api/handlers.go:371-376 | a string has at least as many UTF-8 bytes as runes, so the byte guard never blocks the rune cut |
| Title.ByteLenAscii | api/handlers.go:371 | byte and rune lengths agree exactly on ASCII text |
| Title.CapTitle | api/handlers.go:369-378 | the title is a prefix of the trimmed reply, at most 25 runes, exactly 25 when the trimmed reply is longer, and unchanged when it is not |
| Title.CapTitleKeepsShortTitles | api/handlers.go:369-378 | a trimmed title of at most 25 runes is stored as it is |
| Title.CapTitleIdempotent | api/handlers.go:369-378 | capping a capped title with no trailing space changes nothing |
| Title.TitlePrompt | api/handlers.go:339-345 | the prompt is exactly the fixed instruction, the user's text, the assistant label and the assistant's reply, with nothing else |
| Title.TitlePromptFields | api/handlers.go:339-345 | the user's text and the reply can be read back from the prompt at fixed offsets |
| Title.RunTitleTask | api/handlers.go:337-389 | asks Qwen's default model without streaming; a missing key, a failed call, no choice or a failed update leaves the store unchanged; otherwise only that conversation's title and update time change |
| Title.FirstTurnRetitles | api/handlers.go:322-387 | after a first relayed turn, the dispatched task retitles that conversation unless the update fails, and keeps every message listing |
| Translate.ExtraText | api/handlers.go:412-432 | a string is used as given; an object with `style` gives only the style; another object lists every key with its value and is empty exactly when the object is; other values are rendered |
| Translate.ObjectTextFacts | api/handlers.go:423-428 | whatever the iteration order, the key listing names every key and is empty only for an empty object |
| Translate.FieldsTextContains | api/handlers.go:425-427 | every visited key's text occurs in the listing |
| Translate.SegmentLinesContains | api/handlers.go:407-409 | every segment's line occurs in the segment block |
| Translate.SegmentLinesAppend | api/handlers.go:407-409 | lines are added in segment order |
| Translate.RequirementLine | api/handlers.go:434-436 | the requirement line is present exactly when the requirement text is not empty |
| Translate.Prompt | api/handlers.go:406-440 | the prompt is exactly the header and the segment lines followed by the requirement line and the format instruction, and it contains every segment line and the requirement text |
| Translate.CleanFence | api/handlers.go:487-489 | the cleaned reply has no surrounding spaces and is no longer than the reply |
| Translate.CleanFenceRoundTrip | api/handlers.go:487-489 | with the three-backtick marker, cleaning a fenced body surrounded by spaces gives exactly the body |
| Translate.CleanFenceAsWrittenKeepsFence | api/handlers.go:487 | with the marker as written, a fenced reply keeps its opening fence, so the result is never the body |
| Translate.ReadReply | api/handlers.go:479-504 | no choice is its own error; the raw content is tried first, then the cleaned content; a second failure reports the cleaned text |
| Translate.ReadReplyAcceptsFenced | api/handlers.go:484-491 | with the intended marker, a fenced reply whose body parses is read as that body |
| Translate.ReadReplyAsWrittenRejectsFenced | api/handlers.go:484-496 | with the marker as written, the same reply is rejected even by a parser that accepts exactly its body |
| Translate.TranslateCall | api/handlers.go:443-507 | uses Qwen's default model with the prompt as one user message; key, call, empty and parse failures are 500s, the last carrying the cleaned text; success exactly when the raw or the cleaned first choice parses, answering the raw content when it parses and the cleaned one otherwise, cleaning with the fence marker given (the handler as written or the corrected one) |
| Translate.TranslateCallAsWrittenRejectsFenced | api/handlers.go:483-497 | with the marker as written, a standard fenced reply whose body alone parses is answered 500 with the still-fenced text |
| Translate.TranslateCallAcceptsFenced | api/handlers.go:483-507 | with the corrected marker the same reply is answered with its body |
| Fetch.GetDefaultExtractFields | models/fetch.go:41-52 | every list starts with title and content, has no duplicates and has six fields for news, five for article and blog, three otherwise; summary is missing only for blog; category only for news; tags only for blog; author and publish_date only for the three named types |
| Fetch.BlogIsArticleWithTagsForSummary | models/fetch.go:45-48 | the blog list is the article list with summary removed and tags appended |
| Fetch.ArticleIsNewsWithoutCategory | models/fetch.go:43-46 | the article list is the news list without its final category |
| Fetch.UnknownTypesGetCommonCore | models/fetch.go:49-50 | any other content type, including other capitalisations, gets the first three fields of the news list |
| WebSearch.GetDefaultWebSearchParams | models/web_search.go:172-179 | ten results, zh, CN, one year, empty query, no extras |
| WebSearch.StandardParams | models/web_search.go:71-77 | the five standard parameters are always present |
| WebSearch.BuildParams | models/web_search.go:69-85 | the keys are the standard keys plus the extras; an extra overrides a standard parameter of the same name; other standard parameters come from the request |
| WebSearch.BuildParamsStandard | models/web_search.go:71-77 | without clashing extras, each standard parameter holds the request's field |
| WebSearch.McpRequest | models/web_search.go:69-78 | the request has method `search` and the built parameters |
| WebSearch.StringField | models/web_search.go:142-159 | a missing or non-string field reads as the empty string |
| WebSearch.DecodeItems | models/web_search.go:137-163 | one result per object element |
| WebSearch.DecodeItemsAppend | models/web_search.go:138-163 | decoding is element by element and keeps order |
| WebSearch.DecodeItemsObjects | models/web_search.go:138-162 | a list of objects gives result i from element i |
| WebSearch.DecodeItemsSkips | models/web_search.go:139 | elements that are not objects contribute nothing |
| WebSearch.DecodeEncodeItem | models/web_search.go:140-159 | decoding an item written from a result recovers the result |
| WebSearch.DecodeEncodeItems | models/web_search.go:137-163 | decoding a list of written results recovers the list |
| WebSearch.TruncateToInt | models/web_search.go:133 | the conversion of the count truncates toward zero |
| WebSearch.DecodeSearchResponse | models/web_search.go:122-166 | echoes the query with status success; the count and results are read when present with the right type; a missing or non-object result gives no results and count zero |
| WebSearch.NewWebSearchClient | models/web_search.go:50-64 | creation fails exactly without a Qwen key, whose value becomes the token |
| WebSearch.Search | models/web_search.go:104-168 | transport, status and decode failures are errors; a 200 reply with an object body is the decoded response of exactly that object; a JSON null body decodes as an empty reply; success echoes the query |
| Db.NormalizeDatabaseUrl | db/db.go:31-42 | an empty URL is an error; a URL with `sslmode=` is kept; otherwise the URL is kept as a prefix and gets `&sslmode=disable` when it has `?` and `?sslmode=disable` when it does not; the result always contains `sslmode=` |
| Db.NormalizeIdempotent | db/db.go:36-42 | normalising twice is normalising once |
| Db.AppendedParameterHasSslMode | db/db.go:37-41 | either appended parameter supplies `sslmode=` |

## Left out

- Transport: Gin routing, request binding, SSE headers, flushing and the JSON serialisation of frames. Frames are a
  datatype. Translate's `ShouldBindJSON` validation (api/handlers.go:396-402) is not modelled: the request arrives
  decoded.
- I/O: SQL execution, connection setup, table creation, reading the environment and `.env`, and the HTTP call of
  `Search`. Their outcomes are inputs (`World`, `Exchange`, `CompletionReply`, the title update's `updateError`).
- Handlers.StreamConversation: every `GetConversation` error answers 404 in the source. The model only has the
  "no such row" failure, because database errors other than a missing row are not modelled.
- SessionStore.GetMessagesByConversationID: ties on created_at are listed in insertion order, a modelling choice.
  The SQL leaves them unordered, so for messages with equal stamps the history order `ChatFor` sends is the model's.
- Client disconnects: `clientGone` covers a client that is gone when gin's `c.Stream` is about to run the streaming
  step. A disconnect during the step is not modelled: the step runs to its end, and failed frame writes are not
  effects.
- Non-determinism: UUIDs and `time.Now()` are inputs. The frames of one turn share one `Created` stamp, where the
  source reads the clock once per frame.
- Concurrency: the title goroutine is a `SpawnedTitle` effect, and `RunTitleTask` is a separate later step.
  Interleavings of requests on one conversation are not modelled.
- Provider clients and `json.Unmarshal`: a stream is a sequence of chunks up to the first `Recv` error, and JSON
  parsing is a predicate. The texts of parse errors are not modelled.
- Text.ToLower: only ASCII letters are lower-cased, not the full Unicode case mapping of `strings.ToLower`.
- WebSearch.TruncateToInt: numbers are exact reals rather than float64. Out-of-range conversions are not modelled.
- Translate.ExtraText: the key order of a multi-key `extra_args` object is an input (`order`), since Go's map
  iteration order is unspecified. Values arrive already rendered as `%v` renders them.
- WebSearch.Search: the marshalling failure of the request is not modelled, because a `Json` value always
  serialises.
- LlmClient.GetClient: the `default` branch of the provider switch is not modelled, because `Provider` is a closed
  datatype.
- Schema mismatches are kept as in the source, not reconciled:
  - handlers.go sets a field `ID` where the model type declares `ConversationID`;
  - the DDL names a column `id` where the store queries `conversation_id`.
- models/mcp.go is not part of this model: it is a constant configuration table. The MCP, Fetch and WebSearch HTTP
  handlers are not part of this model either: main.go registers them but handlers.go does not define them.

## Findings

| source | as written | input that shows it | evidently intended | confidence | as-written member | corrected member |
|---|---|---|---|---|---|---|
| api/handlers.go:487 | the retry strips the prefix made of two backticks followed by json, then the closing fence of three backticks | a reply that is a fence of three backticks and json, a newline, {}, a newline and a closing fence is cleaned to a string that still starts with the opening fence, so it does not parse and the handler answers 500 | strip the opening fence of three backticks followed by json, leaving {} | high; not executed | Translate.CleanFenceAsWrittenKeepsFence, Translate.ReadReplyAsWrittenRejectsFenced, Translate.TranslateCallAsWrittenRejectsFenced | Translate.CleanFenceRoundTrip, Translate.ReadReplyAcceptsFenced, Translate.TranslateCallAcceptsFenced |

=== FILE: db.dfy ===
/**
 The connection-string normalisation of `InitDB` (db/db.go): a database URL
 without an `sslmode=` parameter gets `sslmode=disable` appended, as a further
 query parameter when the URL already has a query and as the query otherwise.
 Reading the environment and the `.env` file, and opening the connection, are
 not part of this model.
 */
module Db {
  import opened Results
  import opened Text

  const SslModeKey: string := "sslmode="
  const SslModeDisable: string := "sslmode=disable"
  const MissingUrlError: string := "未配置数据库URL"

  /** An appended parameter: the separator, then `sslmode=disable`. */
  lemma AppendedParameterHasSslMode(url: string, sep: char)
    ensures Contains(url + [sep] + SslModeDisable, SslModeKey)
  {
    assert url + [sep] + SslModeDisable == (url + [sep] + SslModeKey) + "disable";
    ContainsSuffix(url + [sep], SslModeKey);
    ContainsExtend(url + [sep] + SslModeKey, "disable", SslModeKey);
  }

  /** The one-rune string `[c]` occurs in `s` exactly when `c` is one of its runes. */
  lemma {:induction false} ContainsRune(s: string, c: char)
    ensures Contains(s, [c]) <==> c in s
    decreases |s|
  {
    if |s| > 0 {
      ContainsRune(s[1..], c);
      assert s == [s[0]] + s[1..];
    }
  }

  /**
   The URL to connect with: an empty URL is refused; a URL that mentions
   `sslmode=` anywhere is kept; any other URL is kept as a prefix and gets
   `&sslmode=disable` when it has a `?`, else `?sslmode=disable`.
   */
  function NormalizeDatabaseUrl(url: string): (r: Result<string, string>)
    ensures r.Failure? <==> url == ""
    ensures r.Failure? ==> r.error == MissingUrlError
    ensures r.Success? ==> Contains(r.value, SslModeKey) && IsPrefix(url, r.value)
    ensures r.Success? && Contains(url, SslModeKey) ==> r.value == url
    ensures r.Success? && !Contains(url, SslModeKey) ==>
      && |r.value| == |url| + 1 + |SslModeDisable|
      && r.value[|url| + 1..] == SslModeDisable
      && (r.value[|url|] == '&' <==> '?' in url)
      && (r.value[|url|] == '?' <==> '?' !in url)
      && '?' in r.value
  {
    if url == "" then Failure(MissingUrlError)
    else if Contains(url, SslModeKey) then Success(url)
    else
      var sep := if Contains(url, "?") then '&' else '?';
      ContainsRune(url, '?');
      AppendedParameterHasSslMode(url, sep);
      var r := url + [sep] + SslModeDisable;
      assert r[..|url|] == url;
      assert r[|url|] == sep;
      assert '?' in r by {
        if sep == '?' { assert r[|url|] == '?'; } else { var i :| 0 <= i < |url| && url[i] == '?'; assert r[i] == '?'; }
      }
      Success(r)
  }

  /** Normalising an already normalised URL changes nothing. */
  lemma NormalizeIdempotent(url: string)
    requires NormalizeDatabaseUrl(url).Success?
    ensures NormalizeDatabaseUrl(NormalizeDatabaseUrl(url).value) == NormalizeDatabaseUrl(url)
  {
  }
}

=== FILE: fetch.dfy ===
/**
 `GetDefaultExtractFields` of models/fetch.go: the fields a page of a given
 content type is mined for when the caller names none. The content type is
 matched exactly, so letter case matters.
 */
module Fetch {

  /** The field list for a content type. */
  function GetDefaultExtractFields(contentType: string): (r: seq<string>)
    ensures |r| >= 3 && r[0] == "title" && r[1] == "content"
    ensures |r| == if contentType == "news" then 6 else if contentType in {"article", "blog"} then 5 else 3
    ensures forall i, j :: 0 <= i < j < |r| ==> r[i] != r[j]
    ensures "summary" in r <==> contentType != "blog"
    ensures "category" in r <==> contentType == "news"
    ensures "tags" in r <==> contentType == "blog"
    ensures "author" in r <==> contentType in {"news", "article", "blog"}
    ensures "publish_date" in r <==> contentType in {"news", "article", "blog"}
  {
    match contentType
    case "news" => ["title", "content", "summary", "author", "publish_date", "category"]
    case "article" => ["title", "content", "summary", "author", "publish_date"]
    case "blog" => ["title", "content", "author", "publish_date", "tags"]
    case _ => ["title", "content", "summary"]
  }

  /** An article is mined for what news is mined for, except the category, in the same order. */
  lemma ArticleIsNewsWithoutCategory()
    ensures GetDefaultExtractFields("news") == GetDefaultExtractFields("article") + ["category"]
  {
  }

  /** A blog is mined for what an article is mined for, without the summary, and then for its tags. */
  lemma BlogIsArticleWithTagsForSummary()
    ensures GetDefaultExtractFields("blog") ==
      GetDefaultExtractFields("article")[..2] + GetDefaultExtractFields("article")[3..] + ["tags"]
  {
  }

  /** Every content type's list starts like the news list, and an unknown type gets only those first three fields. */
  lemma UnknownTypesGetCommonCore(contentType: string)
    ensures GetDefaultExtractFields(contentType)[..2] == GetDefaultExtractFields("news")[..2]
    ensures contentType !in {"news", "article", "blog"} ==>
      GetDefaultExtractFields(contentType) == GetDefaultExtractFields("news")[..3]
  {
  }
}

=== FILE: handlers.dfy ===
/**
 The streaming conversation turn of api/handlers.go (`StreamConversation`) and
 the first-turn title task it dispatches (`generateAndSetConversationTitle`),
 as pure functions. Everything the handler learns from the outside world (the
 database's failures, the provider's stream, the clock, the generated response
 id) is an input in `World`; everything it does to the outside world is a
 list of `Effect`s in the order it happens, plus the resulting store.
 */
module Handlers {
  import opened Results
  import opened Session
  import opened SessionStore
  import opened LlmClient

  // ---------------------------------------------------------------------
  // The provider's stream and the frames sent to the client

  /** The delta of one choice of a streamed chunk. */
  datatype Delta = Delta(role: string, content: string)

  /** One value returned by `stream.Recv()`: the deltas of its choices, in order. */
  datatype Chunk = Chunk(choices: seq<Delta>)

  datatype FrameChoice = FrameChoice(index: int, delta: Delta, finishReason: Option<string>)

  /** `StreamResponse`, the body of a `data` event. */
  datatype StreamResponse = StreamResponse(
    id: string,
    object: string,
    created: int,
    model: string,
    choices: seq<FrameChoice>)

  /** The server-sent events of one turn: `start`, `data` and `end`. */
  datatype Frame = Start | Data(body: StreamResponse) | End

  const ChunkObject: string := "chat.completion.chunk"

  /** The `data` event relaying one delta. */
  function DataFrame(responseId: string, model: string, created: int, d: Delta): Frame {
    Data(StreamResponse(responseId, ChunkObject, created, model, [FrameChoice(0, Delta(d.role, d.content), None)]))
  }

  /** The `data` event closing the stream: an empty delta with finish reason "stop". */
  function StopFrame(responseId: string, model: string, created: int): Frame {
    Data(StreamResponse(responseId, ChunkObject, created, model, [FrameChoice(0, Delta("", ""), Some("stop"))]))
  }

  function DataFrames(ds: seq<Delta>, responseId: string, model: string, created: int): (r: seq<Frame>)
    ensures |r| == |ds|
    ensures forall i :: 0 <= i < |ds| ==> r[i] == DataFrame(responseId, model, created, ds[i])
  {
    seq(|ds|, i requires 0 <= i < |ds| => DataFrame(responseId, model, created, ds[i]))
  }

  /** A chunk is relayed when it has a first choice whose content is not empty. */
  predicate Relayable(c: Chunk) {
    |c.choices| > 0 && c.choices[0].content != ""
  }

  /** The first-choice deltas of the relayable chunks, in arrival order. */
  function Relayed(chunks: seq<Chunk>): (r: seq<Delta>)
    ensures |r| <= |chunks|
    ensures forall i :: 0 <= i < |r| ==> r[i].content != ""
    decreases |chunks|
  {
    if |chunks| == 0 then []
    else (if Relayable(chunks[0]) then [chunks[0].choices[0]] else []) + Relayed(chunks[1..])
  }

  /** Relaying is chunk by chunk: the relay of a concatenation is the concatenation of the relays. */
  lemma {:induction false} RelayedAppend(a: seq<Chunk>, b: seq<Chunk>)
    ensures Relayed(a + b) == Relayed(a) + Relayed(b)
    decreases |a|
  {
    if a == [] {
      assert a + b == b;
    } else {
      assert (a + b)[1..] == a[1..] + b;
      RelayedAppend(a[1..], b);
    }
  }

  /** A single chunk is relayed as its first delta exactly when that delta has content. */
  lemma RelayedSingle(c: Chunk)
    ensures Relayed([c]) == if Relayable(c) then [c.choices[0]] else []
  {
    assert [c][1..] == [];
  }

  /** Nothing is relayed exactly when no chunk carries content in its first choice. */
  lemma {:induction false} RelayedEmpty(chunks: seq<Chunk>)
    ensures Relayed(chunks) == [] <==> forall i :: 0 <= i < |chunks| ==> !Relayable(chunks[i])
    decreases |chunks|
  {
    if |chunks| > 0 {
      RelayedEmpty(chunks[1..]);
      assert forall i :: 1 <= i < |chunks| ==> chunks[i] == chunks[1..][i - 1];
    }
  }

  /** The texts of the deltas, concatenated. */
  function Concat(ds: seq<Delta>): string
    decreases |ds|
  {
    if |ds| == 0 then [] else ds[0].content + Concat(ds[1..])
  }

  lemma {:induction false} ConcatAppend(a: seq<Delta>, b: seq<Delta>)
    ensures Concat(a + b) == Concat(a) + Concat(b)
    decreases |a|
  {
    if a == [] {
      assert a + b == b;
    } else {
      assert (a + b)[1..] == a[1..] + b;
      ConcatAppend(a[1..], b);
    }
  }

  /** The accumulated response is at least as long as the number of deltas relayed, each being non-empty. */
  lemma {:induction false} ConcatLength(ds: seq<Delta>)
    requires forall i :: 0 <= i < |ds| ==> ds[i].content != ""
    ensures |Concat(ds)| >= |ds|
    ensures Concat(ds) == [] <==> ds == []
    decreases |ds|
  {
    if |ds| > 0 {
      ConcatLength(ds[1..]);
    }
  }

  /** Receiving chunk `i` extends the relay of the first `i` chunks by that chunk's relay. */
  lemma RelayStep(chunks: seq<Chunk>, i: int, responseId: string, model: string, created: int)
    requires 0 <= i < |chunks|
    ensures var prev := Relayed(chunks[..i]);
      var c := chunks[i];
      && DataFrames(Relayed(chunks[..i + 1]), responseId, model, created) ==
        DataFrames(prev, responseId, model, created)
        + (if Relayable(c) then [DataFrame(responseId, model, created, c.choices[0])] else [])
      && Concat(Relayed(chunks[..i + 1])) == Concat(prev) + (if Relayable(c) then c.choices[0].content else [])
  {
    var c := chunks[i];
    assert chunks[..i + 1] == chunks[..i] + [c];
    RelayedAppend(chunks[..i], [c]);
    RelayedSingle(c);
    ConcatAppend(Relayed(chunks[..i]), Relayed([c]));
    if Relayable(c) {
      assert Concat([c.choices[0]]) == c.choices[0].content by {
        assert [c.choices[0]][1..] == [];
      }
    }
  }

  /**
   The receive loop of `StreamConversation`: reads every chunk until the
   stream ends, sends one data frame per relayable chunk, and accumulates the
   relayed text. It computes exactly the relay of the whole stream.
   */
  method RelayStream(chunks: seq<Chunk>, responseId: string, model: string, created: int)
    returns (frames: seq<Frame>, responseContent: string)
    ensures frames == DataFrames(Relayed(chunks), responseId, model, created)
    ensures responseContent == Concat(Relayed(chunks))
  {
    frames := [];
    responseContent := "";
    var i := 0;
    while i < |chunks|
      invariant 0 <= i <= |chunks|
      invariant frames == DataFrames(Relayed(chunks[..i]), responseId, model, created)
      invariant responseContent == Concat(Relayed(chunks[..i]))
    {
      var chunk := chunks[i];
      if |chunk.choices| > 0 {
        var delta := chunk.choices[0];
        if delta.content != "" {
          responseContent := responseContent + delta.content;
          frames := frames + [DataFrame(responseId, model, created, delta)];
        }
      }
      RelayStep(chunks, i, responseId, model, created);
      i := i + 1;
    }
    assert chunks[..i] == chunks;
  }

  // ---------------------------------------------------------------------
  // The turn

  /** What the handler observes from the outside world during one turn. */
  datatype World = World(
    historyError: Option<string>,         // error of the history query
    userWriteError: Option<string>,       // error of inserting the user message
    openError: Option<string>,            // error of CreateChatCompletionStream
    clientGone: bool,                     // the client had disconnected when the stream step was due
    chunks: seq<Chunk>,                   // what Recv returned before its first error (EOF or not)
    assistantWriteError: Option<string>,  // error of inserting the assistant message
    responseId: string,                   // the generated UUID of the response
    userAt: int,                          // time.Now() when the user message is built
    assistantAt: int,                     // time.Now() when the assistant message is built
    unixNow: int)                         // time.Now().Unix() stamped on the frames

  /** The work handed to the title goroutine. */
  datatype TitleTask = TitleTask(conversation: Conversation, userText: string, responseContent: string)

  /** What the handler does to the outside world, in order. */
  datatype Effect =
    | Wrote(message: Message)
    | Opened(request: CompletionRequest)
    | Sent(frame: Frame)
    | SpawnedTitle(task: TitleTask)

  /** An error response with its HTTP status, or a stream of events. */
  datatype Reply = Rejected(status: int, error: string) | Streamed

  datatype Turn = Turn(reply: Reply, effects: seq<Effect>, store: Store)

  const MissingIdError: string := "参数id不能为空"
  const MissingInputError: string := "参数input不能为空"
  const NotFoundError: string := "会话不存在"

  /** The frames sent, in order. */
  function SentFrames(es: seq<Effect>): seq<Frame>
    decreases |es|
  {
    if |es| == 0 then [] else (if es[0].Sent? then [es[0].frame] else []) + SentFrames(es[1..])
  }

  /** The title task dispatched, if any. */
  function SpawnedTask(es: seq<Effect>): Option<TitleTask>
    decreases |es|
  {
    if |es| == 0 then None else if es[0].SpawnedTitle? then Some(es[0].task) else SpawnedTask(es[1..])
  }

  lemma {:induction false} SentFramesAppend(a: seq<Effect>, b: seq<Effect>)
    ensures SentFrames(a + b) == SentFrames(a) + SentFrames(b)
    ensures SpawnedTask(a + b) == if SpawnedTask(a).Some? then SpawnedTask(a) else SpawnedTask(b)
    decreases |a|
  {
    if a == [] {
      assert a + b == b;
    } else {
      assert (a + b)[1..] == a[1..] + b;
      SentFramesAppend(a[1..], b);
    }
  }

  lemma SentFramesSingle(e: Effect)
    ensures SentFrames([e]) == if e.Sent? then [e.frame] else []
    ensures SpawnedTask([e]) == if e.SpawnedTitle? then Some(e.task) else None
  {
    assert [e][1..] == [];
  }

  predicate IsDataSend(e: Effect) {
    e.Sent? && e.frame.Data?
  }

  predicate IsAssistantWrite(e: Effect) {
    e.Wrote? && e.message.role == RoleAssistant
  }

  /** Every data frame is sent before any assistant message is written. */
  predicate RelayBeforePersist(es: seq<Effect>) {
    forall i, j :: 0 <= i < |es| && 0 <= j < |es| && IsDataSend(es[i]) && IsAssistantWrite(es[j]) ==> i < j
  }

  function Sends(frames: seq<Frame>): (r: seq<Effect>)
    ensures |r| == |frames|
    ensures forall i :: 0 <= i < |r| ==> r[i] == Sent(frames[i])
  {
    seq(|frames|, i requires 0 <= i < |frames| => Sent(frames[i]))
  }

  lemma {:induction false} SendsProject(frames: seq<Frame>)
    ensures SentFrames(Sends(frames)) == frames
    ensures SpawnedTask(Sends(frames)) == None
    decreases |frames|
  {
    if |frames| > 0 {
      SendsProject(frames[1..]);
      assert Sends(frames)[1..] == Sends(frames[1..]);
    }
  }

  /** The request passes the checks that precede any write: id, input, conversation, history. */
  predicate Admitted(s: Store, id: string, input: string, w: World) {
    id != "" && input != "" && id in s.conversations && w.historyError.None?
  }

  /** The user message is stored and the provider stream opens. */
  predicate Opens(s: Store, cfg: Config, id: string, input: string, modelSpec: string, w: World) {
    && Admitted(s, id, input, w)
    && w.userWriteError.None?
    && KeyFor(cfg, ParseModel(modelSpec).provider) != ""
    && w.openError.None?
  }

  /**
   The opened stream is relayed: the streaming step runs only while the client
   is still connected, so a client gone by then gets no frame at all.
   */
  predicate Relays(s: Store, cfg: Config, id: string, input: string, modelSpec: string, w: World) {
    Opens(s, cfg, id, input, modelSpec, w) && !w.clientGone
  }

  /** The user message of the turn, before the store assigns its id. */
  function UserMessage(id: string, input: string, w: World): Message {
    FromChatMessage(id, ChatMessage(RoleUser, input), w.userAt)
  }

  /** The assistant message of the turn, before the store assigns its id. */
  function AssistantMessage(id: string, w: World): Message {
    FromChatMessage(id, ChatMessage(RoleAssistant, ResponseText(w)), w.assistantAt)
  }

  /** The text the provider streamed and the client received. */
  function ResponseText(w: World): string {
    Concat(Relayed(w.chunks))
  }

  /** The effects of an opened stream: open, the frames, the writes, the dispatches, then the end frame. */
  function OpenedEffects(req: CompletionRequest, frames: seq<Frame>, writes: seq<Effect>, spawns: seq<Effect>): seq<Effect> {
    [Opened(req)] + Sends(frames) + writes + spawns + [Sent(End)]
  }

  /** The part of an opened turn after the frames: at most one write, at most one dispatch, then the end frame. */
  lemma TailProject(writes: seq<Effect>, spawns: seq<Effect>)
    requires forall k :: 0 <= k < |writes| ==> writes[k].Wrote?
    requires forall k :: 0 <= k < |spawns| ==> spawns[k].SpawnedTitle?
    requires |writes| <= 1 && |spawns| <= 1
    ensures SentFrames(writes + spawns + [Sent(End)]) == [End]
    ensures SpawnedTask(writes + spawns + [Sent(End)]) == if |spawns| == 1 then Some(spawns[0].task) else None
  {
    assert writes + spawns + [Sent(End)] == writes + (spawns + [Sent(End)]);
    SentFramesAppend(writes, spawns + [Sent(End)]);
    SentFramesAppend(spawns, [Sent(End)]);
    SentFramesSingle(Sent(End));
    if |writes| == 1 {
      assert writes == [writes[0]];
      SentFramesSingle(writes[0]);
    }
    if |spawns| == 1 {
      assert spawns == [spawns[0]];
      SentFramesSingle(spawns[0]);
    }
  }

  lemma OpenedEffectsProject(req: CompletionRequest, frames: seq<Frame>, writes: seq<Effect>, spawns: seq<Effect>)
    requires forall k :: 0 <= k < |writes| ==> writes[k].Wrote?
    requires forall k :: 0 <= k < |spawns| ==> spawns[k].SpawnedTitle?
    requires |writes| <= 1 && |spawns| <= 1
    ensures SentFrames(OpenedEffects(req, frames, writes, spawns)) == frames + [End]
    ensures SpawnedTask(OpenedEffects(req, frames, writes, spawns)) == if |spawns| == 1 then Some(spawns[0].task) else None
  {
    var tail := writes + spawns + [Sent(End)];
    assert OpenedEffects(req, frames, writes, spawns) == [Opened(req)] + (Sends(frames) + tail);
    SentFramesAppend([Opened(req)], Sends(frames) + tail);
    SentFramesAppend(Sends(frames), tail);
    SendsProject(frames);
    TailProject(writes, spawns);
    SentFramesSingle(Opened(req));
  }

  lemma OpenedEffectsOrder(req: CompletionRequest, frames: seq<Frame>, writes: seq<Effect>, spawns: seq<Effect>)
    requires forall k :: 0 <= k < |writes| ==> IsAssistantWrite(writes[k])
    requires forall k :: 0 <= k < |spawns| ==> spawns[k].SpawnedTitle?
    ensures RelayBeforePersist(OpenedEffects(req, frames, writes, spawns))
    ensures forall k :: 0 <= k < |OpenedEffects(req, frames, writes, spawns)| ==>
      !(OpenedEffects(req, frames, writes, spawns)[k].Wrote? && OpenedEffects(req, frames, writes, spawns)[k].message.role == RoleUser)
  {
    var es := OpenedEffects(req, frames, writes, spawns);
    var n := |frames|;
    var tail := writes + spawns + [Sent(End)];
    assert es == [Opened(req)] + Sends(frames) + tail;
    forall k | 0 <= k < |es|
      ensures IsDataSend(es[k]) ==> k <= n
      ensures es[k].Wrote? ==> k > n && IsAssistantWrite(es[k])
    {
      if k == 0 {
        assert es[k] == Opened(req);
      } else if k <= n {
        assert es[k] == Sends(frames)[k - 1];
      } else {
        assert es[k] == tail[k - 1 - n];
      }
    }
  }

  /** The events of an opened stream, after the stream has been drained. */
  function StreamedEffects(
    conversation: Conversation, id: string, firstTurn: bool, userText: string,
    req: CompletionRequest, model: string, s1: Store, w: World): (r: (seq<Effect>, Store))
    ensures SentFrames(r.0) ==
      [Start] + DataFrames(Relayed(w.chunks), w.responseId, model, w.unixNow)
      + [StopFrame(w.responseId, model, w.unixNow), End]
    ensures SpawnedTask(r.0) == if firstTurn then Some(TitleTask(conversation, userText, ResponseText(w))) else None
    ensures |r.0| >= 2 && r.0[0] == Opened(req) && r.0[|r.0| - 1] == Sent(End)
    ensures RelayBeforePersist(r.0)
    ensures forall k :: 0 <= k < |r.0| ==> !(r.0[k].Wrote? && r.0[k].message.role == RoleUser)
    ensures w.assistantWriteError.Some? ==> r.1 == s1
    ensures w.assistantWriteError.None? ==> r.1 == CreateMessage(s1, AssistantMessage(id, w))
  {
    var content := ResponseText(w);
    var frames := [Start] + DataFrames(Relayed(w.chunks), w.responseId, model, w.unixNow)
      + [StopFrame(w.responseId, model, w.unixNow)];
    var assistant := AssistantMessage(id, w);
    var writes := if w.assistantWriteError.None? then [Wrote(assistant)] else [];
    var s2 := if w.assistantWriteError.None? then CreateMessage(s1, assistant) else s1;
    var spawns := if firstTurn then [SpawnedTitle(TitleTask(conversation, userText, content))] else [];
    OpenedEffectsProject(req, frames, writes, spawns);
    OpenedEffectsOrder(req, frames, writes, spawns);
    (OpenedEffects(req, frames, writes, spawns), s2)
  }

  /**
   The turn once the user message is stored in `s1`: open the provider stream
   for the model `choice`, relay it, store the answer and dispatch the title.
   */
  function OpenAndRelay(
    s1: Store, cfg: Config, conversation: Conversation, id: string, userMsg: Message,
    choice: ModelChoice, firstTurn: bool, chat: seq<ChatMessage>, w: World): (t: Turn)
    requires userMsg.role == RoleUser && |chat| > 0
    ensures |t.effects| >= 1 && t.effects[0] == Wrote(userMsg)
    ensures KeyFor(cfg, choice.provider) == "" || w.openError.Some? ==>
      t.reply.Rejected? && t.reply.status == 500 && t.effects == [Wrote(userMsg)] && t.store == s1
    ensures KeyFor(cfg, choice.provider) != "" && w.openError.None? ==>
      && t.reply == Streamed
      && |t.effects| >= 2
      && t.effects[1].Opened?
      && t.effects[1].request.messages == chat
      && t.effects[1].request.binding.provider == choice.provider
      && t.effects[1].request.model == (if choice.name == "" then DefaultModel(choice.provider) else choice.name)
      && t.effects[1].request.stream
      && RelayBeforePersist(t.effects)
    ensures KeyFor(cfg, choice.provider) != "" && w.openError.None? && w.clientGone ==>
      && t.effects == [Wrote(userMsg), t.effects[1]] && t.store == s1
      && SentFrames(t.effects) == [] && SpawnedTask(t.effects) == None
    ensures KeyFor(cfg, choice.provider) != "" && w.openError.None? && !w.clientGone ==>
      && |t.effects| >= 3
      && t.effects[|t.effects| - 1] == Sent(End)
      && SentFrames(t.effects) ==
        [Start] + DataFrames(Relayed(w.chunks), w.responseId, choice.name, w.unixNow)
        + [StopFrame(w.responseId, choice.name, w.unixNow), End]
      && SpawnedTask(t.effects) ==
        (if firstTurn then Some(TitleTask(conversation, chat[|chat| - 1].content, ResponseText(w))) else None)
      && (w.assistantWriteError.Some? ==> t.store == s1)
      && (w.assistantWriteError.None? ==> t.store == CreateMessage(s1, AssistantMessage(id, w)))
    ensures KeyFor(cfg, choice.provider) == "" || w.openError.Some? ==> SpawnedTask(t.effects) == None
  {
    SentFramesSingle(Wrote(userMsg));
    var stream := StreamChat(cfg, choice.provider, choice.name, chat);
    if stream.Failure? then
      Turn(Rejected(500, "调用大模型API失败: " + ErrorText(stream.error)), [Wrote(userMsg)], s1)
    else if w.openError.Some? then
      Turn(Rejected(500, "调用大模型API失败: " + w.openError.value), [Wrote(userMsg)], s1)
    else
      OpenedTurn(s1, conversation, id, userMsg, firstTurn, chat[|chat| - 1].content, stream.value, choice.name, w)
  }

  /** An effect that is neither a data frame nor an assistant write does not disturb the order. */
  lemma PrependKeepsOrder(e: Effect, es: seq<Effect>)
    requires RelayBeforePersist(es) && !IsDataSend(e) && !IsAssistantWrite(e)
    ensures RelayBeforePersist([e] + es)
  {
    var all := [e] + es;
    forall i, j | 0 <= i < |all| && 0 <= j < |all| && IsDataSend(all[i]) && IsAssistantWrite(all[j])
      ensures i < j
    {
      assert i > 0 && j > 0;
      assert all[i] == es[i - 1] && all[j] == es[j - 1];
    }
  }

  /**
   The user write followed by the events of the opened stream. When the client
   is already gone, the streaming step never runs: nothing is sent, stored or
   dispatched after the open.
   */
  function OpenedTurn(
    s1: Store, conversation: Conversation, id: string, userMsg: Message, firstTurn: bool, userText: string,
    req: CompletionRequest, model: string, w: World): (t: Turn)
    requires userMsg.role == RoleUser
    ensures t.reply == Streamed
    ensures |t.effects| >= 2 && t.effects[0] == Wrote(userMsg) && t.effects[1] == Opened(req)
    ensures RelayBeforePersist(t.effects)
    ensures w.clientGone ==>
      && t.effects == [Wrote(userMsg), Opened(req)] && t.store == s1
      && SentFrames(t.effects) == [] && SpawnedTask(t.effects) == None
    ensures !w.clientGone ==>
      && |t.effects| >= 3
      && t.effects[|t.effects| - 1] == Sent(End)
      && SentFrames(t.effects) ==
        [Start] + DataFrames(Relayed(w.chunks), w.responseId, model, w.unixNow)
        + [StopFrame(w.responseId, model, w.unixNow), End]
      && SpawnedTask(t.effects) == (if firstTurn then Some(TitleTask(conversation, userText, ResponseText(w))) else None)
      && (w.assistantWriteError.Some? ==> t.store == s1)
      && (w.assistantWriteError.None? ==> t.store == CreateMessage(s1, AssistantMessage(id, w)))
  {
    if w.clientGone then
      GoneEffects(userMsg, req);
      Turn(Streamed, [Wrote(userMsg), Opened(req)], s1)
    else
      var (es, s2) := StreamedEffects(conversation, id, firstTurn, userText, req, model, s1, w);
      var all := [Wrote(userMsg)] + es;
      SentFramesSingle(Wrote(userMsg));
      SentFramesAppend([Wrote(userMsg)], es);
      assert all[1] == es[0];
      PrependKeepsOrder(Wrote(userMsg), es);
      Turn(Streamed, all, s2)
  }

  /** The effects of a turn whose client left before the streaming step: no frame, no dispatch, no assistant write. */
  lemma GoneEffects(userMsg: Message, req: CompletionRequest)
    requires userMsg.role == RoleUser
    ensures SentFrames([Wrote(userMsg), Opened(req)]) == []
    ensures SpawnedTask([Wrote(userMsg), Opened(req)]) == None
    ensures RelayBeforePersist([Wrote(userMsg), Opened(req)])
  {
    assert [Wrote(userMsg), Opened(req)] == [Wrote(userMsg)] + [Opened(req)];
    SentFramesAppend([Wrote(userMsg)], [Opened(req)]);
    SentFramesSingle(Wrote(userMsg));
    SentFramesSingle(Opened(req));
  }

  /**
   `StreamConversation`. Validation runs in the order id, input, conversation,
   history, and a rejection there writes nothing. The user message is stored
   before the stream is opened, so a failure to open leaves exactly that one
   new message. Once open, and unless the client has gone by then, the client receives a start frame, one data frame
   per relayable chunk in arrival order, a stop frame and an end frame; the
   relayed text is stored as the assistant message; on the conversation's
   first turn the title task is dispatched with the user's input.
   */
  function StreamConversation(s: Store, cfg: Config, id: string, input: string, modelSpec: string, w: World): (t: Turn)
    ensures id == "" ==> t == Turn(Rejected(400, MissingIdError), [], s)
    ensures id != "" && input == "" ==> t == Turn(Rejected(400, MissingInputError), [], s)
    ensures id != "" && input != "" && id !in s.conversations ==> t == Turn(Rejected(404, NotFoundError), [], s)
    ensures id != "" && input != "" && id in s.conversations && w.historyError.Some? ==>
      t.reply.Rejected? && t.reply.status == 500 && t.effects == [] && t.store == s
    ensures Admitted(s, id, input, w) && w.userWriteError.Some? ==>
      t.reply.Rejected? && t.reply.status == 500 && t.effects == [] && t.store == s
    ensures Admitted(s, id, input, w) && w.userWriteError.None? ==>
      && |t.effects| >= 1
      && t.effects[0] == Wrote(UserMessage(id, input, w))
  {
    if id == "" then Turn(Rejected(400, MissingIdError), [], s)
    else if input == "" then Turn(Rejected(400, MissingInputError), [], s)
    else match GetConversation(s, id)
    case Failure(_) => Turn(Rejected(404, NotFoundError), [], s)
    case Success(conversation) => AdmittedTurn(s, cfg, conversation, id, input, modelSpec, w)
  }

  /** The turn once the conversation is found: read the history, store the user message, go on. */
  function AdmittedTurn(s: Store, cfg: Config, conversation: Conversation, id: string, input: string, modelSpec: string, w: World): (t: Turn)
    ensures w.historyError.Some? || w.userWriteError.Some? ==>
      t.reply.Rejected? && t.reply.status == 500 && t.effects == [] && t.store == s
    ensures w.historyError.None? && w.userWriteError.None? ==>
      && |t.effects| >= 1
      && t.effects[0] == Wrote(UserMessage(id, input, w))
  {
    var choice := ParseModel(modelSpec);
    match w.historyError
    case Some(e) => Turn(Rejected(500, "获取会话历史失败: " + e), [], s)
    case None =>
      var history := GetMessagesByConversationID(s, id);
      var userMsg := UserMessage(id, input, w);
      match w.userWriteError
      case Some(e) => Turn(Rejected(500, "保存用户消息失败: " + e), [], s)
      case None =>
        var s1 := CreateMessage(s, userMsg);
        var t := OpenAndRelay(s1, cfg, conversation, id, userMsg, choice, |history| == 0, ChatFor(s, id, input), w);
        t
  }

  /** The chat sent to the provider: the stored history in time order, then the new input. */
  function ChatFor(s: Store, id: string, input: string): (r: seq<ChatMessage>)
    ensures |r| == |GetMessagesByConversationID(s, id)| + 1
    ensures r[|r| - 1] == ChatMessage(RoleUser, input)
    ensures r[..|r| - 1] == ToChatMessages(GetMessagesByConversationID(s, id))
  {
    ToChatMessages(GetMessagesByConversationID(s, id)) + [ChatMessage(RoleUser, input)]
  }

  /** Once the user message is stored, the rest of the turn is `OpenAndRelay` on the parsed model. */
  lemma StreamConversationAfterUserWrite(s: Store, cfg: Config, id: string, input: string, modelSpec: string, w: World)
    requires Admitted(s, id, input, w) && w.userWriteError.None?
    ensures StreamConversation(s, cfg, id, input, modelSpec, w) ==
      AdmittedTurn(s, cfg, s.conversations[id], id, input, modelSpec, w) ==
      OpenAndRelay(
        CreateMessage(s, UserMessage(id, input, w)), cfg, s.conversations[id], id, UserMessage(id, input, w),
        ParseModel(modelSpec), |GetMessagesByConversationID(s, id)| == 0, ChatFor(s, id, input), w)
  {
  }

  /** A stream that does not open leaves the user message stored and nothing else. */
  lemma StreamConversationOpenFails(s: Store, cfg: Config, id: string, input: string, modelSpec: string, w: World)
    requires Admitted(s, id, input, w) && w.userWriteError.None? && !Opens(s, cfg, id, input, modelSpec, w)
    ensures var t := StreamConversation(s, cfg, id, input, modelSpec, w);
      && t.reply.Rejected? && t.reply.status == 500
      && t.effects == [Wrote(UserMessage(id, input, w))]
      && t.store == CreateMessage(s, UserMessage(id, input, w))
      && SpawnedTask(t.effects) == None
  {
    StreamConversationAfterUserWrite(s, cfg, id, input, modelSpec, w);
  }

  /**
   A relayed stream: after the user write the stream to the parsed model's
   provider is opened with the history and the input, the client receives the
   start frame, one data frame per relayable chunk, the stop frame and the end
   frame, and every data frame precedes the assistant write.
   */
  lemma StreamConversationStreams(s: Store, cfg: Config, id: string, input: string, modelSpec: string, w: World)
    requires Relays(s, cfg, id, input, modelSpec, w)
    ensures var t := StreamConversation(s, cfg, id, input, modelSpec, w);
      var model := ParseModel(modelSpec).name;
      && t.reply == Streamed
      && |t.effects| >= 3
      && t.effects[0] == Wrote(UserMessage(id, input, w))
      && t.effects[1].Opened?
      && t.effects[1].request.binding.provider == ParseModel(modelSpec).provider
      && t.effects[1].request.model == (if model == "" then DefaultModel(ParseModel(modelSpec).provider) else model)
      && t.effects[1].request.messages == ChatFor(s, id, input)
      && t.effects[|t.effects| - 1] == Sent(End)
      && RelayBeforePersist(t.effects)
      && SentFrames(t.effects) ==
        [Start] + DataFrames(Relayed(w.chunks), w.responseId, model, w.unixNow)
        + [StopFrame(w.responseId, model, w.unixNow), End]
  {
    StreamConversationAfterUserWrite(s, cfg, id, input, modelSpec, w);
  }

  /**
   A client gone before the streaming step: the stream is opened, but nothing is
   sent, the assistant message is not stored and no title task is dispatched.
   */
  lemma StreamConversationClientGone(s: Store, cfg: Config, id: string, input: string, modelSpec: string, w: World)
    requires Opens(s, cfg, id, input, modelSpec, w) && w.clientGone
    ensures var t := StreamConversation(s, cfg, id, input, modelSpec, w);
      && t.reply == Streamed
      && |t.effects| == 2
      && t.effects[0] == Wrote(UserMessage(id, input, w))
      && t.effects[1].Opened?
      && t.effects[1].request.messages == ChatFor(s, id, input)
      && SentFrames(t.effects) == []
      && SpawnedTask(t.effects) == None
      && t.store == CreateMessage(s, UserMessage(id, input, w))
  {
    StreamConversationAfterUserWrite(s, cfg, id, input, modelSpec, w);
  }

  /**
   What a relayed stream leaves in the store: the user message and, unless its
   write fails, the assistant message holding exactly the relayed text.
   */
  lemma StreamConversationPersists(s: Store, cfg: Config, id: string, input: string, modelSpec: string, w: World)
    requires Relays(s, cfg, id, input, modelSpec, w)
    ensures var t := StreamConversation(s, cfg, id, input, modelSpec, w);
      && t.store.conversations == s.conversations
      && |t.store.messages| > |s.messages| && t.store.messages[..|s.messages|] == s.messages
      && (w.assistantWriteError.Some? ==> t.store == CreateMessage(s, UserMessage(id, input, w)))
      && (w.assistantWriteError.None? ==>
        && |t.store.messages| == |s.messages| + 2
        && t.store.messages[|s.messages|].conversationId == id
        && t.store.messages[|s.messages|].role == RoleUser
        && t.store.messages[|s.messages|].content == input
        && t.store.messages[|s.messages|].createdAt == w.userAt
        && t.store.messages[|s.messages| + 1].conversationId == id
        && t.store.messages[|s.messages| + 1].role == RoleAssistant
        && t.store.messages[|s.messages| + 1].content == ResponseText(w)
        && t.store.messages[|s.messages| + 1].createdAt == w.assistantAt)
  {
    StreamConversationAfterUserWrite(s, cfg, id, input, modelSpec, w);
    var s1 := CreateMessage(s, UserMessage(id, input, w));
    var t := StreamConversation(s, cfg, id, input, modelSpec, w);
    assert t.store == if w.assistantWriteError.None? then CreateMessage(s1, AssistantMessage(id, w)) else s1;
    assert s1.messages[..|s.messages|] == s.messages;
    if w.assistantWriteError.None? {
      TwoWrites(s, UserMessage(id, input, w), AssistantMessage(id, w));
    }
  }

  /** Two writes in a row keep the earlier table and put the two messages behind it, in order. */
  lemma TwoWrites(s: Store, m1: Message, m2: Message)
    ensures var s2 := CreateMessage(CreateMessage(s, m1), m2);
      && s2.conversations == s.conversations
      && |s2.messages| == |s.messages| + 2
      && s2.messages[..|s.messages|] == s.messages
      && s2.messages[|s.messages|] == CreateMessage(s, m1).messages[|s.messages|]
      && s2.messages[|s.messages| + 1] == m2.(messageId := s.nextMessageId + 1)
  {
    var s1 := CreateMessage(s, m1);
    var s2 := CreateMessage(s1, m2);
    assert s2.messages[|s.messages|] == s2.messages[..|s1.messages|][|s.messages|];
    assert s2.messages[..|s.messages|] == s2.messages[..|s1.messages|][..|s.messages|];
  }

  /**
   The title task is dispatched exactly on a relayed stream of a conversation
   with no stored messages, and it carries the conversation, the user's input
   and the relayed text.
   */
  lemma StreamConversationTitle(s: Store, cfg: Config, id: string, input: string, modelSpec: string, w: World)
    ensures var task := SpawnedTask(StreamConversation(s, cfg, id, input, modelSpec, w).effects);
      && (task.Some? <==> Relays(s, cfg, id, input, modelSpec, w) && |GetMessagesByConversationID(s, id)| == 0)
      && (task.Some? ==> task.value == TitleTask(s.conversations[id], input, ResponseText(w)))
  {
    if Admitted(s, id, input, w) && w.userWriteError.None? {
      StreamConversationAfterUserWrite(s, cfg, id, input, modelSpec, w);
    } else {
      assert StreamConversation(s, cfg, id, input, modelSpec, w).effects == [];
    }
  }
}

=== FILE: llm_client.dfy ===
/**
 Provider resolution (llm/client.go): which of the four OpenAI-compatible
 vendors a free-text model string selects, which credential and endpoint that
 vendor uses, and the streaming request the gateway would send it. Reading the
 environment and the `.env` file is replaced by an explicit `Config`; the
 go-openai client itself is not modelled, only the request handed to it.
 */
module LlmClient {
  import opened Results
  import opened Text
  import opened Session

  datatype Provider = Qwen | DeepSeek | OpenAI | Kimi

  /** `APIConfig`: one API key per provider; the empty string means "not configured". */
  datatype Config = Config(deepSeekKey: string, openAIKey: string, kimiKey: string, qwenKey: string)

  function KeyFor(c: Config, p: Provider): string {
    match p
    case Qwen => c.qwenKey
    case DeepSeek => c.deepSeekKey
    case OpenAI => c.openAIKey
    case Kimi => c.kimiKey
  }

  /** The final check of `NewClient`: at least one provider must have a key. */
  function NewClient(c: Config): (r: Result<Config, string>)
    ensures r.Failure? <==> forall p: Provider :: KeyFor(c, p) == ""
    ensures r.Success? ==> r.value == c
  {
    if c.deepSeekKey == "" && c.openAIKey == "" && c.kimiKey == "" && c.qwenKey == "" then
      Failure("未填写API，请在系统环境变量或.env文件中填写至少一个大模型API")
    else
      assert KeyFor(c, Qwen) != "" || KeyFor(c, DeepSeek) != "" || KeyFor(c, OpenAI) != "" || KeyFor(c, Kimi) != "";
      Success(c)
  }

  // ---------------------------------------------------------------------
  // ParseModel

  /** A resolved model specifier: the provider to call and the model name to ask it for. */
  datatype ModelChoice = ModelChoice(provider: Provider, name: string)

  /** The model an empty specifier resolves to, and Qwen's default model. */
  const DefaultQwenModel: string := "qwen-turbo-latest"

  /** The provider hints of the `provider/model` form, matched after lower-casing the hint. */
  const Aliases: seq<(string, Provider)> := [
    ("qwen", Qwen), ("通义千问", Qwen), ("通义", Qwen),
    ("deepseek", DeepSeek), ("深度求索", DeepSeek),
    ("openai", OpenAI), ("open ai", OpenAI), ("gpt", OpenAI),
    ("kimi", Kimi), ("moonshot", Kimi), ("月之暗面", Kimi), ("月之", Kimi)
  ]

  /** The name tokens of `matchProviderByModel`, in the order they are tried. */
  const NameTokens: seq<(string, Provider)> := [
    ("qwen", Qwen), ("通义", Qwen), ("deepseek", DeepSeek), ("gpt", OpenAI), ("kimi", Kimi)
  ]

  /** The provider an alias table gives a hint: the hint must equal an alias exactly. */
  function LookupAlias(hint: string, table: seq<(string, Provider)>): (r: Option<Provider>)
    ensures r.None? <==> forall i :: 0 <= i < |table| ==> table[i].0 != hint
    ensures r.Some? ==> exists i :: 0 <= i < |table| && table[i] == (hint, r.value)
    decreases |table|
  {
    if |table| == 0 then None
    else if table[0].0 == hint then Some(table[0].1)
    else
      var r := LookupAlias(hint, table[1..]);
      assert forall i :: 1 <= i < |table| ==> table[i] == table[1..][i - 1];
      r
  }

  /** The provider of the first rule whose token occurs in `s`, or `fallback` when none does. */
  function FirstMatch(s: string, rules: seq<(string, Provider)>, fallback: Provider): Provider
    decreases |rules|
  {
    if |rules| == 0 then fallback
    else if Contains(s, rules[0].0) then rules[0].1
    else FirstMatch(s, rules[1..], fallback)
  }

  /**
   `matchProviderByModel`: the provider of the first name token that occurs in
   the lower-cased name, Qwen when none does.
   */
  function MatchProviderByModel(model: string): Provider {
    FirstMatch(ToLower(model), NameTokens, Qwen)
  }

  /**
   The inference rules spelled out per provider: first match wins in the order
   qwen/通义, deepseek, gpt, kimi, and Qwen is the fallback.
   */
  lemma MatchProviderByModelRules(model: string)
    ensures var r := MatchProviderByModel(model);
      var l := ToLower(model);
      var qwen := Contains(l, "qwen") || Contains(l, "通义");
      && (r == DeepSeek <==> !qwen && Contains(l, "deepseek"))
      && (r == OpenAI <==> !qwen && !Contains(l, "deepseek") && Contains(l, "gpt"))
      && (r == Kimi <==> !qwen && !Contains(l, "deepseek") && !Contains(l, "gpt") && Contains(l, "kimi"))
      && (r == Qwen <==> qwen || (!Contains(l, "deepseek") && !Contains(l, "gpt") && !Contains(l, "kimi")))
  {
    var rules := NameTokens;
    assert rules[1..] == [("通义", Qwen), ("deepseek", DeepSeek), ("gpt", OpenAI), ("kimi", Kimi)];
    assert rules[1..][1..] == [("deepseek", DeepSeek), ("gpt", OpenAI), ("kimi", Kimi)];
    assert rules[1..][1..][1..] == [("gpt", OpenAI), ("kimi", Kimi)];
    assert rules[1..][1..][1..][1..] == [("kimi", Kimi)];
    assert rules[1..][1..][1..][1..][1..] == [];
  }

  /**
   `ParseModel`: the empty string selects Qwen's default model; a string with a
   `/` is read as `hint/name` using the first two `/`-pieces; a hint that is no
   alias falls back to inference from the name; any other string is a name.
   */
  function ParseModel(m: string): (r: ModelChoice)
    ensures m == "" ==> r == ModelChoice(Qwen, DefaultQwenModel)
    ensures m != "" && '/' !in m ==> r == ModelChoice(MatchProviderByModel(m), m)
    ensures '/' in m ==>
      var parts := Split(m, '/');
      && r.name == parts[1]
      && (LookupAlias(ToLower(parts[0]), Aliases).Some? ==> r.provider == LookupAlias(ToLower(parts[0]), Aliases).value)
      && (LookupAlias(ToLower(parts[0]), Aliases).None? ==> r.provider == MatchProviderByModel(parts[1]))
  {
    if m == "" then ModelChoice(Qwen, DefaultQwenModel)
    else if '/' in m && |Split(m, '/')| >= 2 then
      var parts := Split(m, '/');
      var hint := ToLower(parts[0]);
      var name := parts[1];
      match LookupAlias(hint, Aliases)
      case Some(p) => ModelChoice(p, name)
      case None => ModelChoice(MatchProviderByModel(name), name)
    else ModelChoice(MatchProviderByModel(m), m)
  }

  /** The first two `/`-pieces of `hint/name/...` are the hint and the name. */
  lemma SplitHintName(hint: string, name: string, tail: string)
    requires '/' !in hint && '/' !in name
    requires tail == [] || tail[0] == '/'
    ensures var parts := Split(hint + "/" + name + tail, '/');
      |parts| >= 2 && parts[0] == hint && parts[1] == name
  {
    assert hint + "/" + name + tail == hint + ['/'] + (name + tail);
    SplitCons(hint, name + tail, '/');
    if tail == [] {
      assert name + tail == name;
      SplitNoSeparator(name, '/');
    } else {
      assert name + tail == name + ['/'] + tail[1..];
      SplitCons(name, tail[1..], '/');
    }
  }

  /** The model name of `hint/name/...` is exactly the second piece: later pieces are dropped. */
  lemma ParseModelSecondSegment(hint: string, name: string, tail: string)
    requires '/' !in hint && '/' !in name
    requires tail == [] || tail[0] == '/'
    ensures ParseModel(hint + "/" + name + tail).name == name
    ensures ParseModel(hint + "/" + name + tail).provider ==
      match LookupAlias(ToLower(hint), Aliases)
      case Some(p) => p
      case None => MatchProviderByModel(name)
  {
    var m := hint + "/" + name + tail;
    SplitHintName(hint, name, tail);
    assert '/' in m by { assert m[|hint|] == '/'; }
  }

  /** The hint is matched without regard to ASCII case: hints equal after lower-casing resolve alike. */
  lemma ParseModelHintCaseInsensitive(h1: string, h2: string, rest: string)
    requires '/' !in h1 && '/' !in h2
    requires ToLower(h1) == ToLower(h2)
    ensures ParseModel(h1 + "/" + rest) == ParseModel(h2 + "/" + rest)
  {
    var m1 := h1 + "/" + rest;
    var m2 := h2 + "/" + rest;
    SplitCons(h1, rest, '/');
    SplitCons(h2, rest, '/');
    assert m1[|h1|] == '/' && m2[|h2|] == '/';
    assert m1 != "" && m2 != "";
  }

  /** An unrecognised hint never influences the provider: only the name is inspected. */
  lemma ParseModelUnknownHint(hint: string, name: string)
    requires '/' !in hint && '/' !in name
    requires forall i :: 0 <= i < |Aliases| ==> Aliases[i].0 != ToLower(hint)
    ensures ParseModel(hint + "/" + name) == ModelChoice(MatchProviderByModel(name), name)
  {
    ParseModelSecondSegment(hint, name, []);
    assert hint + "/" + name + [] == hint + "/" + name;
  }

  // ---------------------------------------------------------------------
  // GetClient and StreamChat

  /** The model `GetClient` reports for each provider. */
  function DefaultModel(p: Provider): string {
    match p
    case Qwen => DefaultQwenModel
    case DeepSeek => "deepseek-chat"
    case OpenAI => "gpt-4o"
    case Kimi => "kimi-k2-0711-preview"
  }

  /** The OpenAI-compatible endpoint of each provider; OpenAI keeps the library default. */
  function BaseUrl(p: Provider): Option<string> {
    match p
    case Qwen => Some("https://dashscope.aliyuncs.com/compatible-mode/v1")
    case DeepSeek => Some("https://api.deepseek.com/v1")
    case OpenAI => None
    case Kimi => Some("https://api.moonshot.cn/v1")
  }

  function ProviderLabel(p: Provider): string {
    match p
    case Qwen => "Qwen"
    case DeepSeek => "DeepSeek"
    case OpenAI => "OpenAI"
    case Kimi => "Kimi"
  }

  /** A configured client: whom to call, with which key and endpoint, and the provider's default model. */
  datatype Binding = Binding(provider: Provider, apiKey: string, baseUrl: Option<string>, defaultModel: string)

  datatype ClientError = MissingApiKey(provider: Provider)

  function ErrorText(e: ClientError): string {
    "未配置" + ProviderLabel(e.provider) + " API密钥"
  }

  /** `GetClient`: fails exactly when the provider has no key; otherwise binds that key. */
  function GetClient(c: Config, p: Provider): (r: Result<Binding, ClientError>)
    ensures r.Failure? <==> KeyFor(c, p) == ""
    ensures r.Failure? ==> r.error == MissingApiKey(p)
    ensures r.Success? ==>
      && r.value.provider == p
      && r.value.apiKey == KeyFor(c, p) != ""
      && r.value.baseUrl == BaseUrl(p)
      && r.value.defaultModel == DefaultModel(p) != ""
  {
    if KeyFor(c, p) == "" then Failure(MissingApiKey(p))
    else Success(Binding(p, KeyFor(c, p), BaseUrl(p), DefaultModel(p)))
  }

  /** The request `StreamChat` hands to `CreateChatCompletionStream`. */
  datatype CompletionRequest = CompletionRequest(
    binding: Binding,
    model: string,
    messages: seq<ChatMessage>,
    stream: bool)

  /** The provider's answer to a non-streaming completion: an error, or the contents of its choices. */
  datatype CompletionReply = CallFailed(error: string) | Completed(choices: seq<string>)

  /**
   `StreamChat` up to opening the stream: a `GetClient` failure is passed on
   unchanged; otherwise a streaming request for the given messages, naming the
   given model or the provider's default when the given model is empty.
   */
  function StreamChat(c: Config, p: Provider, model: string, messages: seq<ChatMessage>): (r: Result<CompletionRequest, ClientError>)
    ensures r.Failure? <==> KeyFor(c, p) == ""
    ensures r.Failure? ==> r.error == MissingApiKey(p)
    ensures r.Success? ==>
      && r.value.binding.provider == p
      && r.value.binding.apiKey == KeyFor(c, p)
      && r.value.messages == messages
      && r.value.stream
      && r.value.model != ""
      && (model != "" ==> r.value.model == model)
      && (model == "" ==> r.value.model == DefaultModel(p))
  {
    match GetClient(c, p)
    case Failure(e) => Failure(e)
    case Success(b) =>
      var name := if model == "" then b.defaultModel else model;
      Success(CompletionRequest(b, name, messages, true))
  }

  /** First match wins: a name carrying both the deepseek and the gpt token goes to DeepSeek. */
  lemma FirstTokenWins(prefix: string, middle: string, suffix: string)
    requires !Contains(ToLower(prefix + "deepseek" + middle + "gpt" + suffix), "qwen")
    requires !Contains(ToLower(prefix + "deepseek" + middle + "gpt" + suffix), "通义")
    ensures MatchProviderByModel(prefix + "deepseek" + middle + "gpt" + suffix) == DeepSeek
  {
    var m := prefix + "deepseek" + middle + "gpt" + suffix;
    assert ToLower(m) == ToLower(prefix) + "deepseek" + ToLower(middle + "gpt" + suffix) by {
      assert m == prefix + "deepseek" + (middle + "gpt" + suffix);
      assert ToLower("deepseek") == "deepseek";
    }
    ContainsSuffix(ToLower(prefix), "deepseek");
    ContainsExtend(ToLower(prefix) + "deepseek", ToLower(middle + "gpt" + suffix), "deepseek");
    MatchProviderByModelRules(m);
  }

  /** The first entry whose alias equals the hint decides. */
  lemma {:induction false} LookupAliasFirst(hint: string, table: seq<(string, Provider)>, i: int)
    requires 0 <= i < |table| && table[i].0 == hint
    requires forall j :: 0 <= j < i ==> table[j].0 != hint
    ensures LookupAlias(hint, table) == Some(table[i].1)
    decreases i
  {
    if i > 0 {
      LookupAliasFirst(hint, table[1..], i - 1);
    }
  }

  /** Any capitalisation of an OpenAI hint selects OpenAI, keeping the name after the slash. */
  lemma OpenAIHints(hint: string, name: string)
    requires ToLower(hint) in {"openai", "open ai", "gpt"}
    requires '/' !in name
    ensures ParseModel(hint + "/" + name) == ModelChoice(OpenAI, name)
  {
    assert '/' !in hint;
    var h := ToLower(hint);
    var i := if h == "openai" then 5 else if h == "open ai" then 6 else 7;
    assert Aliases[i] == (h, OpenAI);
    LookupAliasFirst(h, Aliases, i);
    ParseModelSecondSegment(hint, name, []);
    assert hint + "/" + name + [] == hint + "/" + name;
  }

  /** A provider hint with nothing after the slash names no model, so the provider's default is used when streaming. */
  lemma EmptyNameAfterHint(hint: string, c: Config, messages: seq<ChatMessage>)
    requires '/' !in hint
    requires KeyFor(c, ParseModel(hint + "/").provider) != ""
    ensures ParseModel(hint + "/").name == ""
    ensures var choice := ParseModel(hint + "/");
      StreamChat(c, choice.provider, choice.name, messages).value.model == DefaultModel(choice.provider)
  {
    ParseModelSecondSegment(hint, "", []);
    assert hint + "/" + "" + [] == hint + "/";
  }
}

=== FILE: results.dfy ===
/** Failure-carrying wrappers shared by every module of the model. */
module Results {

  /** A value that may be absent: a Go `ok == false`, a nil pointer or a nil map. */
  datatype Option<+T> = None | Some(value: T)

  /** A Go `(value, error)` pair in which exactly one side is meaningful. */
  datatype Result<+T, +E> = Success(value: T) | Failure(error: E)
}

=== FILE: session.dfy ===
/**
 The persisted records of a conversation and the conversion between a stored
 message and the chat-completion message the providers consume (models/session.go).
 Timestamps are abstract instants; `time.Now()` becomes a parameter.
 */
module Session {

  /** The roles the gateway writes, as go-openai spells them. */
  const RoleUser: string := "user"
  const RoleAssistant: string := "assistant"
  const RoleSystem: string := "system"

  /** `openai.ChatCompletionMessage`, reduced to the two fields the gateway sets. */
  datatype ChatMessage = ChatMessage(role: string, content: string)

  /** `models.Conversation`. */
  datatype Conversation = Conversation(
    conversationId: string,
    title: string,
    userId: string,
    createdAt: int,
    updatedAt: int)

  /** `models.Message`; `messageId` is assigned by the store, zero until then. */
  datatype Message = Message(
    messageId: int,
    conversationId: string,
    role: string,
    content: string,
    createdAt: int)

  /** `Message.ToChatMessage`: keeps the role and the content, drops the bookkeeping fields. */
  function ToChatMessage(m: Message): (r: ChatMessage)
    ensures r.role == m.role && r.content == m.content
  {
    ChatMessage(m.role, m.content)
  }

  /**
   `FromChatMessage`: a not-yet-stored message of conversation `conversationId`
   stamped `now`. Converting it back gives the chat message it came from.
   */
  function FromChatMessage(conversationId: string, msg: ChatMessage, now: int): (r: Message)
    ensures r.conversationId == conversationId && r.createdAt == now
    ensures r.messageId == 0
    ensures ToChatMessage(r) == msg
  {
    Message(0, conversationId, msg.role, msg.content, now)
  }

  /** The other direction: a message not yet given an id is rebuilt from its chat form and its bookkeeping fields. */
  lemma FromToChatMessage(m: Message)
    requires m.messageId == 0
    ensures FromChatMessage(m.conversationId, ToChatMessage(m), m.createdAt) == m
  {
  }
}

=== FILE: session_store.dfy ===
/**
 The transcript store (store/session_store.go) as an abstract state: a map of
 conversations keyed by id and the message table in insertion order. Each SQL
 statement becomes a pure state transition or query. The message id counter
 plays the part of the SERIAL column.
 */
module SessionStore {
  import opened Results
  import opened Session

  datatype Store = Store(
    conversations: map<string, Conversation>,
    messages: seq<Message>,
    nextMessageId: nat)

  datatype StoreError = DuplicateConversation(id: string) | ConversationNotFound(id: string)

  const Empty: Store := Store(map[], [], 1)

  /** Store invariant: message ids are assigned in increasing order and below the counter. */
  predicate Valid(s: Store) {
    && s.nextMessageId > 0
    && (forall i :: 0 <= i < |s.messages| ==> 0 < s.messages[i].messageId < s.nextMessageId)
    && (forall i, j :: 0 <= i < j < |s.messages| ==> s.messages[i].messageId < s.messages[j].messageId)
  }

  // ---------------------------------------------------------------------
  // Conversations

  /** `GetConversation`: fails exactly when no conversation has the id, else returns the stored record. */
  function GetConversation(s: Store, id: string): (r: Result<Conversation, StoreError>)
    ensures r.Failure? <==> id !in s.conversations
    ensures r.Failure? ==> r.error == ConversationNotFound(id)
    ensures r.Success? ==> r.value == s.conversations[id]
    ensures r.Success? && WellKeyed(s) ==> r.value.conversationId == id
  {
    if id in s.conversations then Success(s.conversations[id]) else Failure(ConversationNotFound(id))
  }

  /** Every conversation is stored under its own id. */
  predicate WellKeyed(s: Store) {
    forall id :: id in s.conversations ==> s.conversations[id].conversationId == id
  }

  /**
   `CreateConversation`: inserts the record under its id; the primary key makes
   a second insert with the same id fail. Nothing else changes.
   */
  function CreateConversation(s: Store, c: Conversation): (r: Result<Store, StoreError>)
    ensures r.Failure? <==> c.conversationId in s.conversations
    ensures r.Success? ==>
      && GetConversation(r.value, c.conversationId) == Success(c)
      && (forall id :: id != c.conversationId ==> GetConversation(r.value, id) == GetConversation(s, id))
      && r.value.messages == s.messages
      && (WellKeyed(s) ==> WellKeyed(r.value))
  {
    if c.conversationId in s.conversations then Failure(DuplicateConversation(c.conversationId))
    else Success(s.(conversations := s.conversations[c.conversationId := c]))
  }

  /**
   `UpdateConversation`: rewrites the title and the update time of the stored
   conversation with the record's id and nothing else; an unknown id matches no
   row and leaves the store as it was.
   */
  function UpdateConversation(s: Store, c: Conversation): (r: Store)
    ensures r.messages == s.messages && r.nextMessageId == s.nextMessageId
    ensures r.conversations.Keys == s.conversations.Keys
    ensures forall id :: id in s.conversations && id != c.conversationId ==> r.conversations[id] == s.conversations[id]
    ensures c.conversationId in s.conversations ==>
      var old_ := s.conversations[c.conversationId];
      var new_ := r.conversations[c.conversationId];
      && new_.title == c.title && new_.updatedAt == c.updatedAt
      && new_.conversationId == old_.conversationId
      && new_.userId == old_.userId
      && new_.createdAt == old_.createdAt
    ensures c.conversationId !in s.conversations ==> r == s
    ensures WellKeyed(s) ==> WellKeyed(r)
  {
    if c.conversationId in s.conversations then
      var stored := s.conversations[c.conversationId];
      s.(conversations := s.conversations[c.conversationId := stored.(title := c.title, updatedAt := c.updatedAt)])
    else s
  }

  // ---------------------------------------------------------------------
  // Messages

  /**
   `CreateMessage`: appends exactly one message carrying the given conversation
   id, role, content and creation time under a fresh id; existing messages and
   conversations are untouched.
   */
  function CreateMessage(s: Store, m: Message): (r: Store)
    ensures r.conversations == s.conversations
    ensures |r.messages| == |s.messages| + 1
    ensures r.messages[..|s.messages|] == s.messages
    ensures var added := r.messages[|s.messages|];
      && added.conversationId == m.conversationId
      && added.role == m.role
      && added.content == m.content
      && added.createdAt == m.createdAt
      && added.messageId == s.nextMessageId
    ensures Valid(s) ==> Valid(r)
  {
    var added := m.(messageId := s.nextMessageId);
    var r := Store(s.conversations, s.messages + [added], s.nextMessageId + 1);
    assert r.messages[..|s.messages|] == s.messages;
    r
  }

  /** The messages of conversation `id`, in table order. */
  function OfConversation(ms: seq<Message>, id: string): (r: seq<Message>)
    ensures forall i :: 0 <= i < |r| ==> r[i].conversationId == id
    ensures |r| <= |ms|
    decreases |ms|
  {
    if |ms| == 0 then []
    else
      var init := OfConversation(ms[..|ms| - 1], id);
      if ms[|ms| - 1].conversationId == id then init + [ms[|ms| - 1]] else init
  }

  predicate SortedByTime(ms: seq<Message>) {
    forall i, j :: 0 <= i < j < |ms| ==> ms[i].createdAt <= ms[j].createdAt
  }

  predicate NotAfter(ms: seq<Message>, t: int) {
    forall i :: 0 <= i < |ms| ==> ms[i].createdAt <= t
  }

  /** Puts `m` behind every message at the end of `sorted` that is not newer than it. */
  function InsertByTime(sorted: seq<Message>, m: Message): (r: seq<Message>)
    ensures multiset(r) == multiset(sorted) + multiset{m}
    decreases |sorted|
  {
    if |sorted| == 0 then [m]
    else
      var last := sorted[|sorted| - 1];
      var init := sorted[..|sorted| - 1];
      assert sorted == init + [last];
      if last.createdAt <= m.createdAt then sorted + [m]
      else InsertByTime(init, m) + [last]
  }

  /** Inserting never moves anything later than a common bound. */
  lemma {:induction false} InsertByTimeBounded(sorted: seq<Message>, m: Message, t: int)
    requires NotAfter(sorted, t) && m.createdAt <= t
    ensures NotAfter(InsertByTime(sorted, m), t)
    decreases |sorted|
  {
    if |sorted| > 0 && m.createdAt < sorted[|sorted| - 1].createdAt {
      InsertByTimeBounded(sorted[..|sorted| - 1], m, t);
    }
  }

  /** Inserting into a sorted listing keeps it sorted. */
  lemma {:induction false} InsertByTimeSorted(sorted: seq<Message>, m: Message)
    requires SortedByTime(sorted)
    ensures SortedByTime(InsertByTime(sorted, m))
    decreases |sorted|
  {
    if |sorted| > 0 {
      var last := sorted[|sorted| - 1];
      var init := sorted[..|sorted| - 1];
      if m.createdAt < last.createdAt {
        InsertByTimeSorted(init, m);
        InsertByTimeBounded(init, m, last.createdAt);
      }
    }
  }

  /**
   A stable sort on creation time for SQL's `ORDER BY created_at ASC`. The
   query leaves rows with equal creation times in no particular order; the
   model fixes one, table order.
   */
  function SortByTime(ms: seq<Message>): (r: seq<Message>)
    ensures SortedByTime(r)
    ensures multiset(r) == multiset(ms)
    decreases |ms|
  {
    if |ms| == 0 then []
    else
      assert ms == ms[..|ms| - 1] + [ms[|ms| - 1]];
      var init := SortByTime(ms[..|ms| - 1]);
      InsertByTimeSorted(init, ms[|ms| - 1]);
      InsertByTime(init, ms[|ms| - 1])
  }

  /** Two sequences with the same elements agree on every property of all their elements. */
  lemma SameElementsSameConversation(a: seq<Message>, b: seq<Message>, id: string)
    requires multiset(a) == multiset(b)
    requires forall i :: 0 <= i < |b| ==> b[i].conversationId == id
    ensures forall i :: 0 <= i < |a| ==> a[i].conversationId == id
  {
    forall i | 0 <= i < |a|
      ensures a[i].conversationId == id
    {
      assert a[i] in multiset(b);
      var k :| 0 <= k < |b| && b[k] == a[i];
    }
  }

  /**
   `GetMessagesByConversationID`: exactly the messages of conversation `id`
   (as a multiset), in non-decreasing creation time.
   */
  function GetMessagesByConversationID(s: Store, id: string): (r: seq<Message>)
    ensures forall i :: 0 <= i < |r| ==> r[i].conversationId == id
    ensures SortedByTime(r)
    ensures multiset(r) == multiset(OfConversation(s.messages, id))
  {
    var r := SortByTime(OfConversation(s.messages, id));
    SameElementsSameConversation(r, OfConversation(s.messages, id), id);
    r
  }

  /** `ToChatMessages`: the chat form of each message, same length, same order. */
  function ToChatMessages(ms: seq<Message>): (r: seq<ChatMessage>)
    ensures |r| == |ms|
    ensures forall i :: 0 <= i < |ms| ==> r[i].role == ms[i].role && r[i].content == ms[i].content
  {
    seq(|ms|, i requires 0 <= i < |ms| => ToChatMessage(ms[i]))
  }

  /** Converting a concatenation converts each part: the conversion is order-preserving. */
  lemma ToChatMessagesAppend(a: seq<Message>, b: seq<Message>)
    ensures ToChatMessages(a + b) == ToChatMessages(a) + ToChatMessages(b)
  {
  }

  // ---------------------------------------------------------------------
  // How writes affect listings

  /** A message for another conversation does not change the listing of `id`. */
  lemma {:induction false} ListingIgnoresOtherConversations(s: Store, m: Message, id: string)
    requires m.conversationId != id
    ensures GetMessagesByConversationID(CreateMessage(s, m), id) == GetMessagesByConversationID(s, id)
  {
    var ms := CreateMessage(s, m).messages;
    assert ms[..|ms| - 1] == s.messages;
  }

  /** Changing a conversation's title does not change any listing. */
  lemma ListingIgnoresTitleUpdates(s: Store, c: Conversation, id: string)
    ensures GetMessagesByConversationID(UpdateConversation(s, c), id) == GetMessagesByConversationID(s, id)
  {
  }

  /**
   A message of conversation `id` that is no older than every message already
   there is listed last, behind the unchanged earlier listing. For a message
   exactly as old as the newest one this rests on the model's tie order.
   */
  lemma {:induction false} ListingAppendsNewest(s: Store, m: Message)
    requires forall i :: 0 <= i < |s.messages| && s.messages[i].conversationId == m.conversationId ==>
      s.messages[i].createdAt <= m.createdAt
    ensures GetMessagesByConversationID(CreateMessage(s, m), m.conversationId) ==
      GetMessagesByConversationID(s, m.conversationId) + [m.(messageId := s.nextMessageId)]
  {
    var id := m.conversationId;
    var ms := CreateMessage(s, m).messages;
    var added := m.(messageId := s.nextMessageId);
    assert ms[..|ms| - 1] == s.messages;
    assert ms[|ms| - 1] == added;
    var before := GetMessagesByConversationID(s, id);
    OfConversationMembers(s.messages, id);
    if |before| > 0 {
      var last := before[|before| - 1];
      assert last in multiset(OfConversation(s.messages, id));
      assert last.createdAt <= m.createdAt;
    }
  }

  /**
   The listing holds exactly the table's messages of conversation `id`, each as
   many times as the table does, and nothing else.
   */
  lemma {:induction false} OfConversationMembers(ms: seq<Message>, id: string)
    ensures forall x :: x in multiset(OfConversation(ms, id)) ==> x in ms && x.conversationId == id
    ensures forall x :: multiset(OfConversation(ms, id))[x] == if x.conversationId == id then multiset(ms)[x] else 0
    decreases |ms|
  {
    if |ms| > 0 {
      var init := ms[..|ms| - 1];
      OfConversationMembers(init, id);
      assert ms == init + [ms[|ms| - 1]];
      assert forall x :: x in init ==> x in ms;
    }
  }
}

=== FILE: text.dfy ===
/**
 The few functions of Go's `strings` package that the gateway relies on, over
 strings modelled as sequences of runes (`char` is a Unicode scalar value).
 */
module Text {

  /** `strings.HasPrefix(s, p)`. */
  predicate IsPrefix(p: string, s: string) {
    |p| <= |s| && s[..|p|] == p
  }

  /** `strings.HasSuffix(s, p)`. */
  predicate IsSuffix(p: string, s: string) {
    |p| <= |s| && s[|s| - |p|..] == p
  }

  /** `strings.Contains(s, sub)`: `sub` starts at some offset of `s`. */
  predicate Contains(s: string, sub: string)
    decreases |s|
  {
    IsPrefix(sub, s) || (|s| > 0 && Contains(s[1..], sub))
  }

  /** Every string occurs in itself followed by anything. */
  lemma ContainsPrefix(a: string, b: string)
    ensures Contains(a + b, a)
  {
    assert (a + b)[..|a|] == a;
  }

  /** A string occurs in any string that ends with it. */
  lemma {:induction false} ContainsSuffix(a: string, b: string)
    ensures Contains(a + b, b)
    decreases |a|
  {
    if a == [] {
      assert a + b == b;
      assert b[..|b|] == b;
    } else {
      assert (a + b)[1..] == a[1..] + b;
      ContainsSuffix(a[1..], b);
    }
  }

  /** Appending text never removes an occurrence. */
  lemma {:induction false} ContainsExtend(s: string, t: string, sub: string)
    requires Contains(s, sub)
    ensures Contains(s + t, sub)
    decreases |s|
  {
    if IsPrefix(sub, s) {
      assert (s + t)[..|sub|] == s[..|sub|];
    } else {
      assert (s + t)[1..] == s[1..] + t;
      ContainsExtend(s[1..], t, sub);
    }
  }

  /** An occurrence in the middle part is an occurrence in the whole. */
  lemma ContainsMiddle(a: string, b: string, c: string, sub: string)
    requires Contains(b, sub)
    ensures Contains(a + b + c, sub)
  {
    ContainsSuffixOf(a, b, sub);
    ContainsExtend(a + b, c, sub);
  }

  /** Prepending text never removes an occurrence. */
  lemma {:induction false} ContainsSuffixOf(a: string, b: string, sub: string)
    requires Contains(b, sub)
    ensures Contains(a + b, sub)
    decreases |a|
  {
    if a != [] {
      assert (a + b)[1..] == a[1..] + b;
      ContainsSuffixOf(a[1..], b, sub);
    } else {
      assert a + b == b;
    }
  }

  /** `sub` occurs in `s` starting at offset `i`. */
  predicate OccursAt(s: string, sub: string, i: int) {
    0 <= i <= |s| - |sub| && s[i..i + |sub|] == sub
  }

  /** Contains means what `strings.Index(s, sub) >= 0` means: some window of `s` equals `sub`. */
  lemma {:induction false} ContainsWindow(s: string, sub: string)
    ensures Contains(s, sub) <==> exists i :: OccursAt(s, sub, i)
    decreases |s|
  {
    if |s| > 0 {
      ContainsWindow(s[1..], sub);
    }
    if Contains(s, sub) {
      if IsPrefix(sub, s) {
        assert OccursAt(s, sub, 0);
      } else {
        var i :| OccursAt(s[1..], sub, i);
        assert s[1..][i..i + |sub|] == s[i + 1..i + 1 + |sub|];
        assert OccursAt(s, sub, i + 1);
      }
    }
    if i :| OccursAt(s, sub, i) {
      if i == 0 {
        assert IsPrefix(sub, s);
      } else {
        assert s[1..][i - 1..i - 1 + |sub|] == s[i..i + |sub|];
        assert OccursAt(s[1..], sub, i - 1);
      }
    }
  }

  // ---------------------------------------------------------------------
  // Case mapping

  /** ASCII upper case letters map to lower case; every other rune is kept. */
  function LowerChar(c: char): (r: char)
    ensures 'A' <= c <= 'Z' ==> 'a' <= r <= 'z' && r as int == c as int + 32
    ensures !('A' <= c <= 'Z') ==> r == c
  {
    if 'A' <= c <= 'Z' then (c as int + 32) as char else c
  }

  /** `strings.ToLower`, restricted to the ASCII range. */
  function ToLower(s: string): (r: string)
    ensures |r| == |s|
    ensures forall i :: 0 <= i < |s| ==> r[i] == LowerChar(s[i])
  {
    seq(|s|, i requires 0 <= i < |s| => LowerChar(s[i]))
  }

  // ---------------------------------------------------------------------
  // Whitespace trimming

  /** Go's `unicode.IsSpace`: the Latin-1 spaces plus the White_Space property. */
  predicate IsSpace(c: char) {
    || c == ' ' || ('\t' <= c <= '\r')
    || c == '\U{85}' || c == '\U{A0}' || c == '\U{1680}'
    || ('\U{2000}' <= c <= '\U{200A}')
    || c == '\U{2028}' || c == '\U{2029}' || c == '\U{202F}' || c == '\U{205F}' || c == '\U{3000}'
  }

  predicate AllSpace(s: string) {
    forall i :: 0 <= i < |s| ==> IsSpace(s[i])
  }

  /** Neither end of `s` is a space. */
  predicate Trimmed(s: string) {
    s == [] || (!IsSpace(s[0]) && !IsSpace(s[|s| - 1]))
  }

  /** Drops the longest all-space prefix. */
  function TrimLeft(s: string): (r: string)
    ensures |r| <= |s| && r == s[|s| - |r|..]
    ensures forall i :: 0 <= i < |s| - |r| ==> IsSpace(s[i])
    ensures r == [] || !IsSpace(r[0])
    decreases |s|
  {
    if |s| > 0 && IsSpace(s[0]) then
      var t := s[1..];
      var r := TrimLeft(t);
      assert t[|t| - |r|..] == s[|s| - |r|..];
      assert forall i :: 1 <= i < |s| - |r| ==> s[i] == t[i - 1];
      r
    else s
  }

  /** Drops the longest all-space suffix. */
  function TrimRight(s: string): (r: string)
    ensures |r| <= |s| && r == s[..|r|]
    ensures forall i :: |r| <= i < |s| ==> IsSpace(s[i])
    ensures r == [] || !IsSpace(r[|r| - 1])
    decreases |s|
  {
    if |s| > 0 && IsSpace(s[|s| - 1]) then
      var t := s[..|s| - 1];
      var r := TrimRight(t);
      assert t[..|r|] == s[..|r|];
      assert forall i :: |r| <= i < |t| ==> s[i] == t[i];
      r
    else s
  }

  /** `strings.TrimSpace`: drop the spaces at both ends; the result has no space at either end. */
  function TrimSpace(s: string): (r: string)
    ensures Trimmed(r)
    ensures |r| <= |s|
  {
    var l := TrimLeft(s);
    var r := TrimRight(l);
    TrimmedBothEnds(l, r);
    r
  }

  lemma TrimmedBothEnds(l: string, r: string)
    requires l == [] || !IsSpace(l[0])
    requires r == TrimRight(l)
    ensures Trimmed(r)
  {
    if r != [] {
      assert r[0] == l[0];
    }
  }

  /** Leading spaces in front of a string that does not start with one are all that TrimLeft drops. */
  lemma {:induction false} TrimLeftSpaces(a: string, x: string)
    requires AllSpace(a)
    requires x == [] || !IsSpace(x[0])
    ensures TrimLeft(a + x) == x
    decreases |a|
  {
    if a == [] {
      assert a + x == x;
    } else {
      assert (a + x)[1..] == a[1..] + x;
      TrimLeftSpaces(a[1..], x);
    }
  }

  /** Trailing spaces behind a string that does not end with one are all that TrimRight drops. */
  lemma {:induction false} TrimRightSpaces(x: string, c: string)
    requires AllSpace(c)
    requires x == [] || !IsSpace(x[|x| - 1])
    ensures TrimRight(x + c) == x
    decreases |c|
  {
    if c == [] {
      assert x + c == x;
    } else {
      assert (x + c)[..|x + c| - 1] == x + c[..|c| - 1];
      TrimRightSpaces(x, c[..|c| - 1]);
    }
  }

  /** TrimSpace recovers the text between two runs of spaces. */
  lemma TrimSpaceSurrounded(a: string, b: string, c: string)
    requires AllSpace(a) && AllSpace(c) && Trimmed(b)
    ensures TrimSpace(a + b + c) == b
  {
    if b == [] {
      assert a + b + c == a + c;
      assert AllSpace(a + c);
      TrimLeftSpaces(a + c, []);
      assert a + c + [] == a + c;
      assert TrimLeft(a + c) == [];
    } else {
      assert a + b + c == a + (b + c);
      TrimLeftSpaces(a, b + c);
      TrimRightSpaces(b, c);
    }
  }

  /** TrimSpace leaves an already trimmed string alone, so it is idempotent. */
  lemma TrimSpaceTrimmed(s: string)
    requires Trimmed(s)
    ensures TrimSpace(s) == s
  {
    TrimSpaceSurrounded([], s, []);
    assert [] + s + [] == s;
  }

  // ---------------------------------------------------------------------
  // Prefix and suffix removal

  /** `strings.TrimPrefix`: removes one leading `p` when present. */
  function TrimPrefix(s: string, p: string): (r: string)
    ensures IsPrefix(p, s) ==> p + r == s
    ensures !IsPrefix(p, s) ==> r == s
  {
    if IsPrefix(p, s) then s[|p|..] else s
  }

  /** `strings.TrimSuffix`: removes one trailing `p` when present. */
  function TrimSuffix(s: string, p: string): (r: string)
    ensures IsSuffix(p, s) ==> r + p == s
    ensures !IsSuffix(p, s) ==> r == s
  {
    if IsSuffix(p, s) then s[..|s| - |p|] else s
  }

  // ---------------------------------------------------------------------
  // Splitting on a separator

  /** `strings.Join(parts, string(sep))`. */
  function Join(parts: seq<string>, sep: char): string
    decreases |parts|
  {
    if |parts| == 0 then []
    else if |parts| == 1 then parts[0]
    else parts[0] + [sep] + Join(parts[1..], sep)
  }

  predicate NoSeparator(parts: seq<string>, sep: char) {
    forall i :: 0 <= i < |parts| ==> sep !in parts[i]
  }

  /** Joining after putting one more rune in front of the first part. */
  lemma JoinConsFirst(c: char, parts: seq<string>, sep: char)
    requires |parts| >= 1
    ensures Join([[c] + parts[0]] + parts[1..], sep) == [c] + Join(parts, sep)
  {
    var q := [[c] + parts[0]] + parts[1..];
    assert q[1..] == parts[1..];
  }

  /**
   `strings.Split(s, string(sep))`: the maximal separator-free pieces of `s`,
   which joined back with `sep` give `s`; there is always at least one piece,
   and at least two exactly when `sep` occurs in `s`.
   */
  function Split(s: string, sep: char): (parts: seq<string>)
    ensures |parts| >= 1
    ensures NoSeparator(parts, sep)
    ensures Join(parts, sep) == s
    ensures sep in s <==> |parts| >= 2
    decreases |s|
  {
    if |s| == 0 then [[]]
    else
      var rest := Split(s[1..], sep);
      if s[0] == sep then
        assert Join([[]] + rest, sep) == [sep] + Join(rest, sep) by {
          assert ([[]] + rest)[1..] == rest;
        }
        assert s == [sep] + s[1..];
        [[]] + rest
      else
        JoinConsFirst(s[0], rest, sep);
        assert s == [s[0]] + s[1..];
        assert sep in s <==> sep in s[1..];
        [[s[0]] + rest[0]] + rest[1..]
  }

  /** A separator-free string is a single piece. */
  lemma {:induction false} SplitNoSeparator(h: string, sep: char)
    requires sep !in h
    ensures Split(h, sep) == [h]
  {
  }

  /** A separator-free head followed by the separator splits off as the first piece. */
  lemma {:induction false} SplitCons(h: string, rest: string, sep: char)
    requires sep !in h
    ensures Split(h + [sep] + rest, sep) == [h] + Split(rest, sep)
    decreases |h|
  {
    var s := h + [sep] + rest;
    if h == [] {
      assert s[1..] == rest;
    } else {
      assert s[1..] == h[1..] + [sep] + rest;
      SplitCons(h[1..], rest, sep);
      assert [h[0]] + h[1..] == h;
    }
  }

  /** Split undoes Join on separator-free pieces: the two are inverse. */
  lemma {:induction false} SplitJoin(parts: seq<string>, sep: char)
    requires |parts| >= 1 && NoSeparator(parts, sep)
    ensures Split(Join(parts, sep), sep) == parts
    decreases |parts|
  {
    if |parts| == 1 {
      SplitNoSeparator(parts[0], sep);
    } else {
      SplitJoin(parts[1..], sep);
      SplitCons(parts[0], Join(parts[1..], sep), sep);
      assert [parts[0]] + parts[1..] == parts;
    }
  }
}

=== FILE: title.dfy ===
/**
 The first-turn title task of api/handlers.go (`generateAndSetConversationTitle`):
 ask Qwen's default model for a short title of the first exchange, trim the
 reply, cap it at 25 runes and store it with a new update time. The task runs
 in its own goroutine in the source; here it is a separate step applied to a
 store, with the provider's reply and the clock as inputs.
 */
module Title {
  import opened Results
  import opened Text
  import opened Session
  import opened SessionStore
  import opened LlmClient
  import opened Handlers

  /** The longest title kept, in runes. */
  const TitleMaxRunes: nat := 25

  const TitleHeader: string := "请为以下对话生成一个25字以内的简要标题:\n\n用户: "
  const TitleAssistantLabel: string := "\n助手: "

  /** The number of bytes of the UTF-8 encoding of one rune. */
  function Utf8Len(c: char): (n: nat)
    ensures 1 <= n <= 4
    ensures n == 1 <==> c as int < 0x80
  {
    if c as int < 0x80 then 1
    else if c as int < 0x800 then 2
    else if c as int < 0x10000 then 3
    else 4
  }

  /** `len(s)` of a Go string: the length of its UTF-8 encoding. */
  function ByteLen(s: string): nat
    decreases |s|
  {
    if |s| == 0 then 0 else Utf8Len(s[0]) + ByteLen(s[1..])
  }

  /** A string has at least as many bytes as runes. */
  lemma {:induction false} ByteLenAtLeastRunes(s: string)
    ensures ByteLen(s) >= |s|
    decreases |s|
  {
    if |s| > 0 {
      ByteLenAtLeastRunes(s[1..]);
    }
  }

  /** Bytes and runes agree exactly on ASCII text. */
  lemma {:induction false} ByteLenAscii(s: string)
    ensures ByteLen(s) == |s| <==> forall i :: 0 <= i < |s| ==> s[i] as int < 0x80
    decreases |s|
  {
    if |s| > 0 {
      ByteLenAscii(s[1..]);
      ByteLenAtLeastRunes(s[1..]);
      assert forall i :: 1 <= i < |s| ==> s[i] == s[1..][i - 1];
    }
  }

  /**
   The title kept from the model's reply: the trimmed reply when it has at
   most 25 runes, else its first 25 runes. The source first compares the byte
   length with 25 and only then counts runes; since no string has fewer bytes
   than runes, that guard never changes the outcome.
   */
  function CapTitle(content: string): (r: string)
    ensures |r| <= TitleMaxRunes
    ensures IsPrefix(r, TrimSpace(content))
    ensures |TrimSpace(content)| <= TitleMaxRunes ==> r == TrimSpace(content)
    ensures |TrimSpace(content)| > TitleMaxRunes ==> |r| == TitleMaxRunes
  {
    var t := TrimSpace(content);
    ByteLenAtLeastRunes(t);
    if ByteLen(t) > TitleMaxRunes then
      if |t| > TitleMaxRunes then t[..TitleMaxRunes] else t
    else t
  }

  /** A reply that is already a trimmed title of at most 25 runes is stored as it is. */
  lemma CapTitleKeepsShortTitles(title: string)
    requires Trimmed(title) && |title| <= TitleMaxRunes
    ensures CapTitle(title) == title
  {
    TrimSpaceTrimmed(title);
  }

  /** Capping a stored title again changes nothing only when the cut left no trailing space. */
  lemma CapTitleIdempotent(content: string)
    requires Trimmed(CapTitle(content))
    ensures CapTitle(CapTitle(content)) == CapTitle(content)
  {
    CapTitleKeepsShortTitles(CapTitle(content));
  }

  /**
   The prompt: a fixed instruction, then the user's text and the assistant's
   reply on labelled lines, with nothing between the labelled reply and the end.
   */
  function TitlePrompt(userText: string, responseContent: string): (r: string)
    ensures IsPrefix(TitleHeader + userText + TitleAssistantLabel, r)
    ensures IsSuffix(responseContent, r)
    ensures |r| == |TitleHeader + userText + TitleAssistantLabel| + |responseContent|
    ensures Contains(r, userText)
  {
    var r := TitleHeader + userText + TitleAssistantLabel + responseContent;
    assert r == (TitleHeader + userText + TitleAssistantLabel) + responseContent;
    ContainsPrefix(userText, TitleAssistantLabel + responseContent);
    assert r == TitleHeader + (userText + (TitleAssistantLabel + responseContent));
    ContainsSuffixOf(TitleHeader, userText + (TitleAssistantLabel + responseContent), userText);
    r
  }

  /** The prompt can be read back: the user's text and the reply sit at fixed offsets behind the header. */
  lemma TitlePromptFields(userText: string, responseContent: string)
    ensures var r := TitlePrompt(userText, responseContent);
      && r[|TitleHeader|..|TitleHeader| + |userText|] == userText
      && r[|TitleHeader + userText + TitleAssistantLabel|..] == responseContent
  {
    var r := TitlePrompt(userText, responseContent);
    var p := TitleHeader + userText + TitleAssistantLabel;
    assert r[..|p|] == p;
    assert r[|TitleHeader|..|TitleHeader| + |userText|] == p[|TitleHeader|..|TitleHeader| + |userText|];
  }

  /** The request the task sends, if it gets that far, and the store afterwards. */
  datatype TitleOutcome = TitleOutcome(request: Option<CompletionRequest>, store: Store)

  /**
   `generateAndSetConversationTitle`: the model of the empty specifier is used
   (Qwen's default); a missing Qwen key, a failed call or a reply without
   choices leaves the store untouched. Otherwise the conversation's title
   becomes the capped reply and its update time `now`, unless the update fails
   (`updateError`), which is only logged; nothing else changes.
   */
  function RunTitleTask(
    s: Store, cfg: Config, task: TitleTask, reply: CompletionReply, now: int,
    updateError: Option<string>): (r: TitleOutcome)
    ensures r.request.Some? <==> KeyFor(cfg, Qwen) != ""
    ensures r.request.Some? ==>
      && r.request.value.binding.provider == Qwen
      && r.request.value.binding.apiKey == KeyFor(cfg, Qwen)
      && r.request.value.model == DefaultQwenModel
      && !r.request.value.stream
      && r.request.value.messages == [ChatMessage(RoleUser, TitlePrompt(task.userText, task.responseContent))]
    ensures r.store.messages == s.messages && r.store.nextMessageId == s.nextMessageId
    ensures r.store.conversations.Keys == s.conversations.Keys
    ensures KeyFor(cfg, Qwen) == "" || reply.CallFailed? || (reply.Completed? && |reply.choices| == 0) ==> r.store == s
    ensures updateError.Some? ==> r.store == s
    ensures forall id :: id in s.conversations && id != task.conversation.conversationId ==>
      r.store.conversations[id] == s.conversations[id]
    ensures var id := task.conversation.conversationId;
      KeyFor(cfg, Qwen) != "" && reply.Completed? && |reply.choices| > 0 && updateError.None? && id in s.conversations ==>
        && r.store.conversations[id] == s.conversations[id].(title := CapTitle(reply.choices[0]), updatedAt := now)
  {
    var choice := ParseModel("");
    match GetClient(cfg, choice.provider)
    case Failure(_) => TitleOutcome(None, s)
    case Success(binding) =>
      var req := CompletionRequest(binding, choice.name, [ChatMessage(RoleUser, TitlePrompt(task.userText, task.responseContent))], false);
      match reply
      case CallFailed(_) => TitleOutcome(Some(req), s)
      case Completed(choices) =>
        if |choices| == 0 || updateError.Some? then TitleOutcome(Some(req), s)
        else
          var updated := task.conversation.(title := CapTitle(choices[0]), updatedAt := now);
          TitleOutcome(Some(req), UpdateConversation(s, updated))
  }

  /**
   After a first turn whose stream was relayed, running the dispatched task with a
   non-empty reply retitles exactly that conversation unless the update fails,
   and keeps every listing either way.
   */
  lemma FirstTurnRetitles(
    s: Store, cfg: Config, id: string, input: string, modelSpec: string, w: World,
    reply: string, now: int, updateError: Option<string>)
    requires Relays(s, cfg, id, input, modelSpec, w) && |GetMessagesByConversationID(s, id)| == 0
    requires KeyFor(cfg, Qwen) != ""
    requires WellKeyed(s)
    ensures var t := StreamConversation(s, cfg, id, input, modelSpec, w);
      var after := RunTitleTask(t.store, cfg, SpawnedTask(t.effects).value, Completed([reply]), now, updateError).store;
      && (updateError.None? ==> after.conversations[id].title == CapTitle(reply) && after.conversations[id].updatedAt == now)
      && (updateError.Some? ==> after == t.store)
      && (forall other :: GetMessagesByConversationID(after, other) == GetMessagesByConversationID(t.store, other))
  {
    StreamConversationTitle(s, cfg, id, input, modelSpec, w);
    var t := StreamConversation(s, cfg, id, input, modelSpec, w);
    var task := SpawnedTask(t.effects).value;
    StreamConversationAfterUserWrite(s, cfg, id, input, modelSpec, w);
    assert t.store.conversations == s.conversations;
    assert task.conversation.conversationId == id;
    forall other
      ensures GetMessagesByConversationID(RunTitleTask(t.store, cfg, task, Completed([reply]), now, updateError).store, other)
        == GetMessagesByConversationID(t.store, other)
    {
      assert RunTitleTask(t.store, cfg, task, Completed([reply]), now, updateError).store.messages == t.store.messages;
    }
  }
}

=== FILE: translate.dfy ===
/**
 The `Translate` handler of api/handlers.go: the prompt built from the target
 language, the segments and the optional extra arguments, and the tolerant
 two-attempt reading of the model's reply. `json.Unmarshal` is an abstract
 predicate `parses`; the completion call is an input.
 */
module Translate {
  import opened Results
  import opened Text
  import opened LlmClient
  import opened Session

  /** `TranslateSegment`. */
  datatype Segment = Segment(id: string, text: string)

  /**
   `extra_args` after JSON decoding: a string, an object whose values are
   already rendered as `%v` renders them, with the order in which Go's map
   iteration happens to visit the keys, or any other value, already rendered.
   */
  datatype ExtraArgs =
    | TextArg(text: string)
    | ObjectArg(fields: map<string, string>, order: seq<string>)
    | OtherArg(rendered: string)

  /** `order` visits every key of `fields` exactly once. */
  predicate IsIterationOrder(fields: map<string, string>, order: seq<string>) {
    && (forall k :: k in fields ==> k in order)
    && (forall i :: 0 <= i < |order| ==> order[i] in fields)
    && (forall i, j :: 0 <= i < j < |order| ==> order[i] != order[j])
  }

  predicate WellFormedExtra(e: ExtraArgs) {
    e.ObjectArg? ==> IsIterationOrder(e.fields, e.order)
  }

  /** One visited key as the loop appends it: a space, the key, a colon and the value. */
  function FieldText(fields: map<string, string>, k: string): string
    requires k in fields
  {
    " " + k + ": " + fields[k]
  }

  /** The loop over the keys without `style`, in visiting order. */
  function FieldsText(fields: map<string, string>, order: seq<string>): (r: string)
    requires forall i :: 0 <= i < |order| ==> order[i] in fields
    ensures r == [] <==> order == []
    decreases |order|
  {
    if |order| == 0 then []
    else
      var init := FieldsText(fields, order[..|order| - 1]);
      init + FieldText(fields, order[|order| - 1])
  }

  /** Each visited key's text occurs in the loop's result. */
  lemma {:induction false} FieldsTextContains(fields: map<string, string>, order: seq<string>, i: int)
    requires forall j :: 0 <= j < |order| ==> order[j] in fields
    requires 0 <= i < |order|
    ensures Contains(FieldsText(fields, order), FieldText(fields, order[i]))
    decreases |order|
  {
    var init := order[..|order| - 1];
    if i == |order| - 1 {
      ContainsSuffix(FieldsText(fields, init), FieldText(fields, order[i]));
    } else {
      assert order[i] == init[i];
      FieldsTextContains(fields, init, i);
      ContainsExtend(FieldsText(fields, init), FieldText(fields, order[|order| - 1]), FieldText(fields, order[i]));
    }
  }

  /** The loop's result is empty exactly for an empty object, and it lists every key. */
  lemma ObjectTextFacts(fields: map<string, string>, order: seq<string>)
    requires IsIterationOrder(fields, order)
    ensures FieldsText(fields, order) == [] <==> |fields| == 0
    ensures forall k :: k in fields ==> Contains(FieldsText(fields, order), FieldText(fields, k))
  {
    assert |fields| == 0 <==> order == [] by {
      if order != [] { assert order[0] in fields; }
      if |fields| != 0 { var k :| k in fields; assert k in order; }
    }
    forall k | k in fields
      ensures Contains(FieldsText(fields, order), FieldText(fields, k))
    {
      var i :| 0 <= i < |order| && order[i] == k;
      FieldsTextContains(fields, order, i);
    }
  }

  const StyleKey: string := "style"
  const StyleLabel: string := "风格: "

  /**
   The requirement text of `extra_args`: a string is used as it is; an object
   with a `style` key gives only its style; any other object lists every key
   with its value; other values are their rendering.
   */
  function ExtraText(e: ExtraArgs): (r: string)
    requires WellFormedExtra(e)
    ensures e.TextArg? ==> r == e.text
    ensures e.OtherArg? ==> r == e.rendered
    ensures e.ObjectArg? && StyleKey in e.fields ==> r == StyleLabel + e.fields[StyleKey]
    ensures e.ObjectArg? && StyleKey !in e.fields ==>
      && (r == [] <==> |e.fields| == 0)
      && (forall k :: k in e.fields ==> Contains(r, FieldText(e.fields, k)))
  {
    match e
    case TextArg(t) => t
    case OtherArg(v) => v
    case ObjectArg(fields, order) =>
      if StyleKey in fields then StyleLabel + fields[StyleKey]
      else
        ObjectTextFacts(fields, order);
        FieldsText(fields, order)
  }

  function Header(target: string): string {
    "请将以下内容翻译为" + target + "语言:\n"
  }

  function SegmentLine(s: Segment): string {
    "片段ID " + s.id + ": " + s.text + "\n"
  }

  /** The segment lines, one per segment, in request order. */
  function SegmentLines(segs: seq<Segment>): (r: string)
    decreases |segs|
  {
    if |segs| == 0 then [] else SegmentLines(segs[..|segs| - 1]) + SegmentLine(segs[|segs| - 1])
  }

  /** Adding a segment adds its line at the end. */
  lemma SegmentLinesAppend(segs: seq<Segment>, s: Segment)
    ensures SegmentLines(segs + [s]) == SegmentLines(segs) + SegmentLine(s)
  {
    assert (segs + [s])[..|segs|] == segs;
  }

  /** Every segment's line occurs in the segment block. */
  lemma {:induction false} SegmentLinesContains(segs: seq<Segment>, i: int)
    requires 0 <= i < |segs|
    ensures Contains(SegmentLines(segs), SegmentLine(segs[i]))
    decreases |segs|
  {
    var init := segs[..|segs| - 1];
    if i == |segs| - 1 {
      ContainsSuffix(SegmentLines(init), SegmentLine(segs[i]));
    } else {
      assert segs[i] == init[i];
      SegmentLinesContains(init, i);
      ContainsExtend(SegmentLines(init), SegmentLine(segs[|segs| - 1]), SegmentLine(segs[i]));
    }
  }

  /** The requirement line, present only when the requirement text is not empty. */
  function RequirementLine(extra: Option<ExtraArgs>): (r: string)
    requires extra.Some? ==> WellFormedExtra(extra.value)
    ensures extra.None? ==> r == []
    ensures extra.Some? && ExtraText(extra.value) == [] ==> r == []
    ensures extra.Some? && ExtraText(extra.value) != [] ==> r == "翻译要求: " + ExtraText(extra.value) + "\n"
  {
    match extra
    case None => []
    case Some(e) =>
      var t := ExtraText(e);
      if t != [] then "翻译要求: " + t + "\n" else []
  }

  /** The fixed instruction on the reply's format that closes every prompt. */
  const JsonInstruction: string :=
    "请按照以下JSON格式返回结果，只返回JSON，不要包含其他内容:\n"
    + "{\n  \"target\": \"目标语言\",\n  \"segments\": [\n    {\"id\": \"片段ID\", \"text\": \"翻译后的文本\"}\n  ]\n}"

  /**
   The prompt: the header naming the target language, one line per segment in
   order, the requirement line when there is one, and the format instruction.
   */
  function Prompt(target: string, segs: seq<Segment>, extra: Option<ExtraArgs>): (r: string)
    requires extra.Some? ==> WellFormedExtra(extra.value)
    ensures IsPrefix(Header(target) + SegmentLines(segs), r)
    ensures IsSuffix(RequirementLine(extra) + JsonInstruction, r)
    ensures |r| == |Header(target) + SegmentLines(segs)| + |RequirementLine(extra) + JsonInstruction|
    ensures forall i :: 0 <= i < |segs| ==> Contains(r, SegmentLine(segs[i]))
    ensures extra.Some? && ExtraText(extra.value) != [] ==> Contains(r, ExtraText(extra.value))
  {
    PromptContents(target, segs, extra);
    Header(target) + SegmentLines(segs) + (RequirementLine(extra) + JsonInstruction)
  }

  lemma PromptContents(target: string, segs: seq<Segment>, extra: Option<ExtraArgs>)
    requires extra.Some? ==> WellFormedExtra(extra.value)
    ensures var r := Header(target) + SegmentLines(segs) + (RequirementLine(extra) + JsonInstruction);
      && (forall i :: 0 <= i < |segs| ==> Contains(r, SegmentLine(segs[i])))
      && (extra.Some? && ExtraText(extra.value) != [] ==> Contains(r, ExtraText(extra.value)))
  {
    var head := Header(target);
    var back := RequirementLine(extra) + JsonInstruction;
    forall i | 0 <= i < |segs|
      ensures Contains(head + SegmentLines(segs) + back, SegmentLine(segs[i]))
    {
      SegmentLinesContains(segs, i);
      ContainsMiddle(head, SegmentLines(segs), back, SegmentLine(segs[i]));
    }
    if extra.Some? && ExtraText(extra.value) != [] {
      RequirementInPrompt(head + SegmentLines(segs), ExtraText(extra.value), JsonInstruction);
    }
  }

  /** The requirement text occurs in a prompt that carries its line. */
  lemma RequirementInPrompt(front: string, t: string, instruction: string)
    ensures Contains(front + (("翻译要求: " + t + "\n") + instruction), t)
  {
    ContainsPrefix(t, "\n" + instruction);
    ContainsMiddle(front + "翻译要求: ", t + "\n" + instruction, [], t);
    assert front + "翻译要求: " + (t + "\n" + instruction) + [] == front + (("翻译要求: " + t + "\n") + instruction);
  }

  // ---------------------------------------------------------------------
  // Reading the reply

  /** The code fence the cleanup is evidently meant to remove. */
  const Fence: string := "```json"
  /** The prefix the source actually removes: two backticks, not three. */
  const FenceAsWritten: string := "``json"
  const FenceClose: string := "```"

  /** The cleanup before the second attempt: drop the opening marker and a closing fence, then trim. */
  function CleanFence(content: string, open: string): (r: string)
    ensures Trimmed(r)
    ensures |r| <= |content|
  {
    var t := TrimSuffix(TrimPrefix(content, open), FenceClose);
    assert |TrimPrefix(content, open)| <= |content|;
    TrimSpace(t)
  }

  /** With the intended marker, a fenced reply is cleaned to exactly what the fence encloses. */
  lemma CleanFenceRoundTrip(a: string, body: string, c: string)
    requires AllSpace(a) && AllSpace(c) && Trimmed(body)
    ensures CleanFence(Fence + a + body + c + FenceClose, Fence) == body
  {
    var s := Fence + a + body + c + FenceClose;
    assert s == Fence + (a + body + c + FenceClose);
    assert IsPrefix(Fence, s);
    var u := TrimPrefix(s, Fence);
    assert u == (a + body + c) + FenceClose;
    assert IsSuffix(FenceClose, u);
    assert TrimSuffix(u, FenceClose) == a + body + c;
    TrimSpaceSurrounded(a, body, c);
  }

  /**
   As written, the two-backtick marker never matches the start of a
   three-backtick fence, so a fenced reply keeps its opening marker and the
   spaces after it: the cleaned text is never the fenced body.
   */
  lemma CleanFenceAsWrittenKeepsFence(a: string, body: string, c: string)
    requires AllSpace(a) && AllSpace(c) && Trimmed(body) && body != []
    ensures CleanFence(Fence + a + body + c + FenceClose, FenceAsWritten) == Fence + a + body
    ensures CleanFence(Fence + a + body + c + FenceClose, FenceAsWritten) != body
  {
    var s := Fence + a + body + c + FenceClose;
    assert s[2] == '`' && FenceAsWritten[2] == 'j';
    assert !IsPrefix(FenceAsWritten, s);
    assert s == (Fence + a + body + c) + FenceClose;
    assert IsSuffix(FenceClose, s);
    assert TrimSuffix(s, FenceClose) == [] + (Fence + a + body) + c;
    var kept := Fence + a + body;
    assert kept[0] == '`' && kept[|kept| - 1] == body[|body| - 1];
    TrimSpaceSurrounded([], kept, c);
  }

  /** The reply as the handler reads it: parsed text, the cleaned text that failed, or no choice at all. */
  datatype ReplyReading = Parsed(text: string) | Unparsable(cleaned: string) | NoChoice

  /**
   The two attempts: the first choice's content as it is, then cleaned with the
   marker `open`; a second failure reports the cleaned text; no choice at all is
   its own error.
   */
  function ReadReply(choices: seq<string>, parses: string -> bool, open: string): (r: ReplyReading)
    ensures r == NoChoice <==> |choices| == 0
    ensures r.Parsed? ==> parses(r.text)
    ensures |choices| > 0 && parses(choices[0]) ==> r == Parsed(choices[0])
    ensures |choices| > 0 && !parses(choices[0]) ==>
      (if parses(CleanFence(choices[0], open)) then r == Parsed(CleanFence(choices[0], open))
       else r == Unparsable(CleanFence(choices[0], open)))
  {
    if |choices| == 0 then NoChoice
    else
      var content := choices[0];
      if parses(content) then Parsed(content)
      else
        var cleaned := CleanFence(content, open);
        if parses(cleaned) then Parsed(cleaned) else Unparsable(cleaned)
  }

  /**
   With the intended marker, a reply whose fenced body parses is accepted
   whatever spaces surround the body, and the body is what is read.
   */
  lemma ReadReplyAcceptsFenced(a: string, body: string, c: string, rest: seq<string>, parses: string -> bool)
    requires AllSpace(a) && AllSpace(c) && Trimmed(body)
    requires parses(body) && !parses(Fence + a + body + c + FenceClose)
    ensures ReadReply([Fence + a + body + c + FenceClose] + rest, parses, Fence) == Parsed(body)
  {
    CleanFenceRoundTrip(a, body, c);
  }

  /**
   With the marker as written, a fenced reply is rejected even by a parser
   that accepts exactly its body, which the intended marker recovers.
   */
  lemma ReadReplyAsWrittenRejectsFenced(a: string, body: string, c: string, rest: seq<string>)
    requires AllSpace(a) && AllSpace(c) && Trimmed(body) && body != []
    ensures var parses := (x: string) => x == body;
      var reply := Fence + a + body + c + FenceClose;
      && ReadReply([reply] + rest, parses, FenceAsWritten) == Unparsable(Fence + a + body)
      && ReadReply([reply] + rest, parses, Fence) == Parsed(body)
  {
    var reply := Fence + a + body + c + FenceClose;
    assert |reply| > |body|;
    CleanFenceAsWrittenKeepsFence(a, body, c);
    CleanFenceRoundTrip(a, body, c);
  }

  // ---------------------------------------------------------------------
  // The handler

  datatype TranslateReply = TranslateOk(body: string) | TranslateError(status: int, error: string, rawContent: Option<string>)

  /**
   `Translate` from the built prompt on: the model of the empty specifier is
   asked with the prompt as one user message and no streaming; a missing key,
   a failed call, an empty reply and an unparsable reply are 500s, the last
   carrying the cleaned text; otherwise the parsed text is returned with 200.
   The retry strips the marker `open`: `FenceAsWritten` is the handler as
   written, `Fence` the intended cleanup.
   */
  function TranslateCall(
    cfg: Config, target: string, segs: seq<Segment>, extra: Option<ExtraArgs>,
    reply: CompletionReply, parses: string -> bool, open: string): (r: (Option<CompletionRequest>, TranslateReply))
    requires extra.Some? ==> WellFormedExtra(extra.value)
    ensures r.0.Some? <==> KeyFor(cfg, Qwen) != ""
    ensures r.0.Some? ==>
      && r.0.value.binding.provider == Qwen
      && r.0.value.model == DefaultQwenModel
      && !r.0.value.stream
      && r.0.value.messages == [ChatMessage(RoleUser, Prompt(target, segs, extra))]
    ensures KeyFor(cfg, Qwen) == "" ==>
      r.1 == TranslateError(500, "获取大模型客户端失败: " + ErrorText(MissingApiKey(Qwen)), None)
    ensures KeyFor(cfg, Qwen) != "" && reply.CallFailed? ==>
      r.1 == TranslateError(500, "调用大模型API失败: " + reply.error, None)
    ensures KeyFor(cfg, Qwen) != "" && reply.Completed? && |reply.choices| == 0 ==>
      r.1 == TranslateError(500, "大模型未返回有效内容", None)
    ensures r.1.TranslateOk? <==>
      && KeyFor(cfg, Qwen) != "" && reply.Completed? && |reply.choices| > 0
      && (parses(reply.choices[0]) || parses(CleanFence(reply.choices[0], open)))
    ensures r.1.TranslateOk? ==> parses(r.1.body)
    ensures r.1.TranslateOk? ==>
      r.1.body == if parses(reply.choices[0]) then reply.choices[0] else CleanFence(reply.choices[0], open)
    ensures r.1.TranslateError? && r.1.rawContent.Some? ==>
      && reply.Completed? && |reply.choices| > 0
      && r.1.rawContent.value == CleanFence(reply.choices[0], open)
      && !parses(r.1.rawContent.value)
  {
    var choice := ParseModel("");
    match GetClient(cfg, choice.provider)
    case Failure(e) => (None, TranslateError(500, "获取大模型客户端失败: " + ErrorText(e), None))
    case Success(binding) =>
      var req := CompletionRequest(binding, choice.name, [ChatMessage(RoleUser, Prompt(target, segs, extra))], false);
      match reply
      case CallFailed(e) => (Some(req), TranslateError(500, "调用大模型API失败: " + e, None))
      case Completed(choices) =>
        match ReadReply(choices, parses, open)
        case NoChoice => (Some(req), TranslateError(500, "大模型未返回有效内容", None))
        case Unparsable(cleaned) => (Some(req), TranslateError(500, "解析翻译结果失败", Some(cleaned)))
        case Parsed(text) => (Some(req), TranslateOk(text))
  }

  /**
   The handler as written answers 500 to a standard fenced reply whose body is
   the only thing its parser accepts, and reports the text it failed on.
   */
  lemma TranslateCallAsWrittenRejectsFenced(
    cfg: Config, target: string, segs: seq<Segment>, extra: Option<ExtraArgs>,
    a: string, body: string, c: string, rest: seq<string>)
    requires extra.Some? ==> WellFormedExtra(extra.value)
    requires KeyFor(cfg, Qwen) != ""
    requires AllSpace(a) && AllSpace(c) && Trimmed(body) && body != []
    ensures var reply := Completed([Fence + a + body + c + FenceClose] + rest);
      TranslateCall(cfg, target, segs, extra, reply, (x: string) => x == body, FenceAsWritten).1
        == TranslateError(500, "解析翻译结果失败", Some(Fence + a + body))
  {
    ReadReplyAsWrittenRejectsFenced(a, body, c, rest);
  }

  /** With the intended marker the same reply is answered with its body. */
  lemma TranslateCallAcceptsFenced(
    cfg: Config, target: string, segs: seq<Segment>, extra: Option<ExtraArgs>,
    a: string, body: string, c: string, rest: seq<string>)
    requires extra.Some? ==> WellFormedExtra(extra.value)
    requires KeyFor(cfg, Qwen) != ""
    requires AllSpace(a) && AllSpace(c) && Trimmed(body)
    ensures var reply := Completed([Fence + a + body + c + FenceClose] + rest);
      TranslateCall(cfg, target, segs, extra, reply, (x: string) => x == body, Fence).1 == TranslateOk(body)
  {
    var reply := Fence + a + body + c + FenceClose;
    assert |reply| > |body|;
    ReadReplyAcceptsFenced(a, body, c, rest, (x: string) => x == body);
  }
}

=== FILE: web_search.dfy ===
/**
 The web-search client of models/web_search.go: its default parameters, the
 parameter map of the MCP `search` call with the caller's extra parameters
 merged in, and the tolerant decoding of the reply. JSON values are a
 datatype; the HTTP exchange and the clock are inputs.
 */
module WebSearch {
  import opened Results

  /** A decoded JSON value, as `encoding/json` produces it into `interface{}`. */
  datatype Json =
    | JNull
    | JBool(b: bool)
    | JNumber(n: real)
    | JString(s: string)
    | JArray(items: seq<Json>)
    | JObject(fields: map<string, Json>)

  /** `WebSearchRequest`; a nil `ExtraParams` is `None`. */
  datatype WebSearchRequest = WebSearchRequest(
    query: string,
    maxResults: int,
    language: string,
    region: string,
    timeRange: string,
    extraParams: Option<map<string, Json>>)

  /** `WebSearchResult`. */
  datatype WebSearchResult = WebSearchResult(
    title: string,
    url: string,
    snippet: string,
    source: string,
    publishedAt: string,
    language: string)

  /** `WebSearchResponse`; the search time is the clock input `searchTime`. */
  datatype WebSearchResponse = WebSearchResponse(
    query: string,
    results: seq<WebSearchResult>,
    totalCount: int,
    searchTime: int,
    status: string,
    error: string)

  /** `GetDefaultWebSearchParams`: ten results in Chinese from China within a year, no query, no extras. */
  function GetDefaultWebSearchParams(): (r: WebSearchRequest)
    ensures r.maxResults == 10 && r.language == "zh" && r.region == "CN" && r.timeRange == "1y"
    ensures r.query == "" && r.extraParams.None?
  {
    WebSearchRequest("", 10, "zh", "CN", "1y", None)
  }

  /** The five parameters every search carries. */
  const StandardKeys: set<string> := {"query", "max_results", "language", "region", "time_range"}

  function StandardParams(req: WebSearchRequest): (r: map<string, Json>)
    ensures r.Keys == StandardKeys
  {
    map[
      "query" := JString(req.query),
      "max_results" := JNumber(req.maxResults as real),
      "language" := JString(req.language),
      "region" := JString(req.region),
      "time_range" := JString(req.timeRange)]
  }

  /**
   The `params` object of the MCP request: the five standard parameters from
   the request, each overridden by an extra parameter of the same name, plus
   every other extra parameter.
   */
  function BuildParams(req: WebSearchRequest): (r: map<string, Json>)
    ensures req.extraParams.None? ==> r == StandardParams(req)
    ensures req.extraParams.Some? ==>
      && r.Keys == StandardKeys + req.extraParams.value.Keys
      && (forall k :: k in req.extraParams.value ==> r[k] == req.extraParams.value[k])
      && (forall k :: k in StandardKeys && k !in req.extraParams.value ==> r[k] == StandardParams(req)[k])
  {
    match req.extraParams
    case None => StandardParams(req)
    case Some(extra) => StandardParams(req) + extra
  }

  /** Without extras the parameters read back exactly the request's fields. */
  lemma BuildParamsStandard(req: WebSearchRequest)
    requires req.extraParams.None? || req.extraParams.value.Keys !! StandardKeys
    ensures var p := BuildParams(req);
      && p["query"] == JString(req.query)
      && p["max_results"] == JNumber(req.maxResults as real)
      && p["language"] == JString(req.language)
      && p["region"] == JString(req.region)
      && p["time_range"] == JString(req.timeRange)
  {
    assert "query" in StandardKeys && "max_results" in StandardKeys && "language" in StandardKeys;
    assert "region" in StandardKeys && "time_range" in StandardKeys;
  }

  /** The whole MCP request: method `search` and the built parameters. */
  function McpRequest(req: WebSearchRequest): (r: map<string, Json>)
    ensures r.Keys == {"method", "params"}
    ensures r["method"] == JString("search")
    ensures r["params"] == JObject(BuildParams(req))
  {
    map["method" := JString("search"), "params" := JObject(BuildParams(req))]
  }

  // ---------------------------------------------------------------------
  // Decoding the reply

  /** A string field of a result item; missing or of another type, it is empty. */
  function StringField(item: map<string, Json>, key: string): (r: string)
    ensures key in item && item[key].JString? ==> r == item[key].s
    ensures !(key in item && item[key].JString?) ==> r == ""
  {
    if key in item && item[key].JString? then item[key].s else ""
  }

  function DecodeItem(item: map<string, Json>): WebSearchResult {
    WebSearchResult(
      StringField(item, "title"),
      StringField(item, "url"),
      StringField(item, "snippet"),
      StringField(item, "source"),
      StringField(item, "published_at"),
      StringField(item, "language"))
  }

  /** A result written back as the JSON object the provider sends. */
  function EncodeItem(x: WebSearchResult): Json {
    JObject(map[
      "title" := JString(x.title), "url" := JString(x.url), "snippet" := JString(x.snippet),
      "source" := JString(x.source), "published_at" := JString(x.publishedAt), "language" := JString(x.language)])
  }

  /** Decoding a provider item recovers the result it was written from. */
  lemma DecodeEncodeItem(x: WebSearchResult)
    ensures DecodeItem(EncodeItem(x).fields) == x
  {
  }

  /** The number of object elements of a list. */
  function ObjectCount(items: seq<Json>): nat
    decreases |items|
  {
    if |items| == 0 then 0 else (if items[0].JObject? then 1 else 0) + ObjectCount(items[1..])
  }

  /** One result per object element, in list order; other elements are skipped. */
  function DecodeItems(items: seq<Json>): (r: seq<WebSearchResult>)
    ensures |r| == ObjectCount(items)
    decreases |items|
  {
    if |items| == 0 then []
    else (if items[0].JObject? then [DecodeItem(items[0].fields)] else []) + DecodeItems(items[1..])
  }

  /** Decoding is element by element: the results of a concatenation are the concatenated results. */
  lemma {:induction false} DecodeItemsAppend(a: seq<Json>, b: seq<Json>)
    ensures DecodeItems(a + b) == DecodeItems(a) + DecodeItems(b)
    decreases |a|
  {
    if a == [] {
      assert a + b == b;
    } else {
      assert (a + b)[1..] == a[1..] + b;
      DecodeItemsAppend(a[1..], b);
    }
  }

  /** A list of objects only gives one result per element, element i decoded into result i. */
  lemma {:induction false} DecodeItemsObjects(items: seq<Json>)
    requires forall i :: 0 <= i < |items| ==> items[i].JObject?
    ensures |DecodeItems(items)| == |items|
    ensures forall i :: 0 <= i < |items| ==> DecodeItems(items)[i] == DecodeItem(items[i].fields)
    decreases |items|
  {
    if |items| > 0 {
      DecodeItemsObjects(items[1..]);
      assert forall i :: 1 <= i < |items| ==> items[i] == items[1..][i - 1];
    }
  }

  /** Decoding a list of encoded results gives back exactly those results, in order. */
  lemma DecodeEncodeItems(xs: seq<WebSearchResult>)
    ensures DecodeItems(seq(|xs|, i requires 0 <= i < |xs| => EncodeItem(xs[i]))) == xs
  {
    var items := seq(|xs|, i requires 0 <= i < |xs| => EncodeItem(xs[i]));
    DecodeItemsObjects(items);
    forall i | 0 <= i < |xs|
      ensures DecodeItems(items)[i] == xs[i]
    {
      DecodeEncodeItem(xs[i]);
    }
  }

  /** Elements that are not objects contribute nothing. */
  lemma {:induction false} DecodeItemsSkips(items: seq<Json>)
    requires forall i :: 0 <= i < |items| ==> !items[i].JObject?
    ensures DecodeItems(items) == []
    decreases |items|
  {
    if |items| > 0 {
      DecodeItemsSkips(items[1..]);
    }
  }

  /** Go's `int(f)` on a float64: truncation toward zero. */
  function TruncateToInt(x: real): (r: int)
    ensures x >= 0.0 ==> r as real <= x < r as real + 1.0
    ensures x < 0.0 ==> r as real - 1.0 < x <= r as real
  {
    if x >= 0.0 then x.Floor else -((-x).Floor)
  }

  /**
   The response built from a decoded reply: the request's query, status
   "success", the total count when `result.total_count` is a number, and the
   results of `result.results` when it is a list; a missing or non-object
   `result` gives no results and a zero count.
   */
  function DecodeSearchResponse(query: string, reply: map<string, Json>, searchTime: int): (r: WebSearchResponse)
    ensures r.query == query && r.status == "success" && r.error == "" && r.searchTime == searchTime
    ensures !("result" in reply && reply["result"].JObject?) ==> r.results == [] && r.totalCount == 0
    ensures "result" in reply && reply["result"].JObject? ==>
      var result := reply["result"].fields;
      && ("total_count" in result && result["total_count"].JNumber? ==>
          r.totalCount == TruncateToInt(result["total_count"].n))
      && (!("total_count" in result && result["total_count"].JNumber?) ==> r.totalCount == 0)
      && ("results" in result && result["results"].JArray? ==>
          |r.results| == ObjectCount(result["results"].items) && r.results == DecodeItems(result["results"].items))
      && (!("results" in result && result["results"].JArray?) ==> r.results == [])
  {
    var base := WebSearchResponse(query, [], 0, searchTime, "success", "");
    if "result" in reply && reply["result"].JObject? then
      var result := reply["result"].fields;
      var count := if "total_count" in result && result["total_count"].JNumber? then TruncateToInt(result["total_count"].n) else 0;
      var results := if "results" in result && result["results"].JArray? then DecodeItems(result["results"].items) else [];
      base.(totalCount := count, results := results)
    else base
  }

  // ---------------------------------------------------------------------
  // The client

  datatype WebSearchClient = WebSearchClient(apiKey: string, endpoint: string)

  const WebSearchEndpoint: string := "https://dashscope.aliyuncs.com/api/v1/mcps/WebSearch/sse"

  /** `NewWebSearchClient`: needs the Qwen key, which becomes the bearer token. */
  function NewWebSearchClient(qwenKey: string): (r: Result<WebSearchClient, string>)
    ensures r.Failure? <==> qwenKey == ""
    ensures r.Success? ==> r.value.apiKey == qwenKey && r.value.endpoint == WebSearchEndpoint
  {
    if qwenKey == "" then Failure("未配置QWEN_API_KEY环境变量") else Success(WebSearchClient(qwenKey, WebSearchEndpoint))
  }

  /** What the HTTP exchange yields: a transport error, or a status and the body as decoded JSON (`None` when it does not decode). */
  datatype Exchange = TransportFailed(error: string) | Answered(status: int, body: Option<Json>)

  datatype SearchError = SendFailed(error: string) | BadStatus(status: int) | DecodeFailed

  /**
   `Search` after sending `McpRequest(req)`: a transport failure, a status
   other than 200 and a body that is not a JSON object (null decodes as an
   empty one) are errors; otherwise the decoded response.
   */
  function Search(req: WebSearchRequest, exchange: Exchange, searchTime: int): (r: Result<WebSearchResponse, SearchError>)
    ensures exchange.TransportFailed? ==> r == Failure(SendFailed(exchange.error))
    ensures exchange.Answered? && exchange.status != 200 ==> r == Failure(BadStatus(exchange.status))
    ensures exchange.Answered? && exchange.status == 200 ==>
      (r.Failure? <==> !(exchange.body.Some? && (exchange.body.value.JObject? || exchange.body.value.JNull?)))
    ensures r.Success? ==> r.value.query == req.query && r.value.status == "success"
    ensures exchange.Answered? && exchange.status == 200 && exchange.body.Some? && exchange.body.value.JObject? ==>
      r == Success(DecodeSearchResponse(req.query, exchange.body.value.fields, searchTime))
    ensures exchange.Answered? && exchange.body == Some(JNull) && exchange.status == 200 ==>
      r.Success? && r.value.results == [] && r.value.totalCount == 0
  {
    match exchange
    case TransportFailed(e) => Failure(SendFailed(e))
    case Answered(status, body) =>
      if status != 200 then Failure(BadStatus(status))
      else match body
        case Some(JObject(fields)) => Success(DecodeSearchResponse(req.query, fields, searchTime))
        case Some(JNull) => Success(DecodeSearchResponse(req.query, map[], searchTime))
        case _ => Failure(DecodeFailed)
  }
}
